=== FILE: README.md ===
# Antario menu and D3D font — a Dafny model

Antario is an internal game overlay. It has two cores, and this project models the logic of both:

- **The menu** (`Antario/Menu.cpp`). A tree of windows, sections and leaf controls (windows hold sections or controls, sections hold controls): checkbox, button, combo box, slider and dummy spacer.
  - Each message runs the mouse cursor's state machine, which turns Windows mouse messages into *held* and *pressed* flags for each button.
  - It then walks the tree once.
  - Each control re-derives its hit rectangles from its position, reacts to the cursor and writes the value it is bound to.
  - Windows lay out their children in columns on every update, because their one-shot layout latch is never set. Sections lay out into a fixed number of columns, once and then on every drag. Windows are dragged by their header.
- **The font renderer** (`Antario/Utils/D3DFont.cpp`).
  - `InitDeviceObjects` chooses a square texture size from the font height. It packs the 95 printable ASCII glyphs row by row into that texture, and records each glyph's texture coordinates. It turns the rasterised bits into 4-bit alpha texels.
  - `GetTextExtent` measures a string: the widest row, and the row height times the number of rows.
  - `DrawString` turns a string into textured quads. It has an optional drop shadow and optional centring. It sends the quads to the device in batches of at most 300 vertices.

Modules:

- `wrappers.dfy`: `Option`.
- `cursor.dfy`: the `MouseCursor` class, with the pure `Think` step it is proved against.
- `layout.dfy`: the pure layout, slider and combo-list arithmetic.
- `widgets.dfy`: the control classes, sections, windows and the tree walk.
- `atlas.dfy`: texture sizing, glyph packing (in place on an array) and the alpha conversion (on an `array2`).
- `textmetrics.dfy`: `GetTextExtent`, with a row-by-row reference definition.
- `drawtext.dfy`: the `Font` class, the vertex stream `DrawString` produces and its batching.

How the source is represented:

- **Globals.** `BaseWindow::bIsDragged`, the function-local statics (the window's one-shot layout latch and `vecOldMousePos`), `g_Settings.bMenuOpened`, the style paddings and the font height are fields of one `MenuContext` object that every control receives.
- **Bound values.** The `bool`, `int` and `float` variables a control is bound to are cells: `BoolCell`, `IntCell` and `NumCell`. A button's callback is an `ActionLog` whose call count it increments.
- **The tree.** The tree is a `Node` datatype tagging each object with its kind. Positions live in one `Placement` object per control.
- **Devices.** The Direct3D device, GDI rasterisation and the draw calls are not modelled as calls:
  - glyph extents and rasterised bits are method inputs;
  - every `DrawPrimitive` call is recorded as the batch of vertices it would submit.

## Model

| member | source | states |
|---|---|---|
| Cursor.Think | Antario/Menu.cpp:41-79 | after any message, a button that reads as pressed is also held |
| Cursor.Latch | Antario/Menu.cpp:66-78 | a press turns into "held" on the next message; "pressed" survives only on the message where the button went down while not held |
| Cursor.DownPulsesOnlyWhenNotHeld | Antario/Menu.cpp:49-72 | a button-down message gives a one-message "pressed" pulse exactly when the button was not already held, and leaves it held |
| Cursor.UpClearsOnlyItsButton | Antario/Menu.cpp:52-78 | a button-up message clears both flags of that button; the other button keeps its held level (its pressed pulse ends, as after any message); the position is unchanged |
| Cursor.MoveOnlySetsPosition | Antario/Menu.cpp:45-48 | client and non-client mouse moves only change the cursor position |
| Cursor.Trace | Antario/Menu.cpp:105-112 | one cursor state per message, each the step of the previous one |
| Cursor.ClickPulsesOnce | Antario/Menu.cpp:41-79 | over a down, any messages not involving the left button, then an up, the left button reads as pressed on exactly the first message and is held until the up |
| Cursor.InBounds | Antario/Menu.cpp:81-84 | hit testing is strict: a point on an edge is never inside, and a hit implies a non-degenerate rectangle |
| Cursor.MouseCursor.RunThink | Antario/Menu.cpp:41-79 | the object's new state is `Think` of its old state; pressed implies held |
| Widgets.RunThink | Antario/Menu.cpp:105-112 | runs the cursor step, then the menu's update pass; every window before the stopping point reported no change and the window at it reported one, each by the rules of `Reported`; every window after it is untouched, so one message acts on at most one window; the menu-opened flag is unchanged |
| Widgets.UpdateChildren | Antario/Menu.cpp:114-123 | stops at the first child that reports a change: every child before it reported none and the one at it reported one; every later child is untouched; windows are the only nodes that move children |
| Widgets.UpdateNode | Antario/Menu.cpp:114-123 | dispatches to the node's own `UpdateData`, and its result is what that kind reports (`Reported`): a checkbox or button reports a click on it, a combo box follows `ComboStep`, a slider reports exactly while it is pressed, a container reports what its children's pass reported; a checkbox flips its value exactly when it reports, a button runs its callback exactly when it reports, a slider keeps its value when it reports nothing; sections and leaves never move themselves |
| Widgets.Checkbox.UpdateData | Antario/Menu.cpp:354-373 | hover is the strict hit test of the tick box; a click on it flips the bound bool and reports a change; otherwise the bool is unchanged |
| Widgets.Button.UpdateData | Antario/Menu.cpp:407-420 | a click inside the button calls the callback exactly once and reports a change; otherwise it is not called |
| Widgets.ComboStep | Antario/Menu.cpp:507-563 | a click on the selector toggles the list; a click outside an open list closes it; the value changes only to an option row that was clicked; a closed list opens only on a click on the selector, and away from the selector a closed list changes nothing but its hover flag; an open list away from both zones without a click forgets its hovered row and stays open only while the menu is; a click on an open list always lands on a row and picks the first row under the pointer; without a click the last row under the pointer becomes the hovered one; the list closes when the menu closes |
| Widgets.ListStep | Antario/Menu.cpp:531-549 | a click selects the first option row under the cursor, closes the list and reports a change; without a click the hovered row is the last one under the cursor |
| Widgets.ComboBox.UpdateData | Antario/Menu.cpp:507-563 | the box's state and result are `ComboStep` of its old state |
| Widgets.ComboBox.ScanOptions | Antario/Menu.cpp:531-549 | the option loop's effect on the box's state is `ListStep` |
| Layout.FirstRowHit | Antario/Menu.cpp:531-549 | returns the first option row under the cursor, or nothing if no row is hit |
| Layout.LastRowHit | Antario/Menu.cpp:531-549 | returns the last option row under the cursor, or nothing if no row is hit |
| Layout.ListZoneCoveredByRows | Antario/Menu.cpp:527-549 | a cursor strictly inside the list area lies strictly inside some option row; the list area is empty unless there are options and the row height is positive |
| Widgets.Slider.GetValuePerPixel | Antario/Menu.cpp:655-658 | the track's width times the value per pixel is the range; positive for a non-empty range |
| Widgets.Slider.SetValue | Antario/Menu.cpp:662-668 | the stored value is the input clamped to [min, max] |
| Layout.Clamp | Antario/Menu.cpp:662-668 | the result is in range, equals the input inside the range, and equals the nearest bound outside it |
| Layout.Trunc | Antario/Menu.cpp:646 | `static_cast<int>` truncates toward zero: within one of the input, on its side of zero |
| Widgets.Slider.UpdateData | Antario/Menu.cpp:623-651 | the marker sits where the old value maps on the track; hover, once set, is never cleared; a press on the track starts a drag that lasts while the button is held; while dragging, the value moves by the anchor's distance from the marker, cast and clamped into range; otherwise the value is unchanged |
| Layout.MarkerRoundTrip | Antario/Menu.cpp:626 | the marker's offset from the track start, converted back through the value per pixel, is the value's offset from the minimum |
| Layout.DragSetsValueUnderAnchor | Antario/Menu.cpp:640-646 | dragging sets the value the track maps to under the drag anchor, clamped to the range |
| Widgets.BaseSection.SetupPositions | Antario/Menu.cpp:277-314 | children are placed in columns once and again on every drag; otherwise they keep their positions; the section itself does not move |
| Widgets.BaseSection.UpdateData | Antario/Menu.cpp:271-275 | lays out, then updates children until the first change; every child before it reported none and the one at it reported one |
| Widgets.PlaceInColumns | Antario/Menu.cpp:286-313 | each child ends up at the position `SectionLayout` gives it |
| Layout.SectionPlaceFits | Antario/Menu.cpp:286-313 | every placed child ends at or above the section's bottom edge |
| Layout.SectionPlaceColumns | Antario/Menu.cpp:286-313 | every child's x is one of the section's column positions |
| Layout.SectionLayoutColumns | Antario/Menu.cpp:277-314 | a section's layout uses only its `numRows` columns |
| Layout.SectionPlaceStacks | Antario/Menu.cpp:286-313 | each child starts one padding below its predecessor or at the top of a new column |
| Layout.SectionPlaceAdvance | Antario/Menu.cpp:288-310 | a child that fits is placed at the running height, which then grows by its height and one padding |
| Layout.SectionPlaceWrap | Antario/Menu.cpp:292-305 | a child that does not fit moves to the next column while columns remain; otherwise placement stops |
| Widgets.BaseWindow.Drag | Antario/Menu.cpp:221-241 | a drag starts with a press on the header; it moves the window by the cursor's movement since the last message; it ends when the button is released; the last cursor position is remembered |
| Widgets.BaseWindow.UpdateData | Antario/Menu.cpp:186-245 | the window drags, then lays out its children at its new position; since the one-shot layout latch is never set, this happens on every call; the layout is the corrected `WindowPlace` (see Findings), not the `flUsedArea = 0` of Menu.cpp:205; then it updates the children until the first change, every child before it having reported none |
| Widgets.SetChildPos | Antario/Menu.cpp:190-215 | each child ends up at the position the corrected `WindowPlace` gives it |
| Layout.WindowStep | Antario/Menu.cpp:199-213 | a child goes below the previous one or at the top of the next column; the pen's running height continues one padding below it |
| Layout.WindowPlaceStacks | Antario/Menu.cpp:190-215 | in the corrected layout, no child starts above the content area; each child sits one padding below its predecessor, or in a column to the right of it |
| Layout.WindowPlaceAdvance | Antario/Menu.cpp:197-214 | one step of the window layout loop matches the recursive layout |
| Layout.WrappedColumnOverlaps | Antario/Menu.cpp:203-205 | in the layout as written, the second child of a wrapped column is placed over the first |
| Widgets.SetPosAt | Antario/Menu.cpp:209 | sets one child's position and leaves every other child's position unchanged |
| Widgets.PlacesDistinct | Antario/Menu.cpp:190-215 | distinct children of a well-formed node have distinct position objects |
| Atlas.RequestedSide | Antario/Utils/D3DFont.cpp:116-124 | the side is 2048, 1024, 512 or 256 for font heights above 60, above 30, above 15 and otherwise |
| Atlas.RequestedSideMonotone | Antario/Utils/D3DFont.cpp:116-124 | a taller font never asks for a smaller texture |
| Atlas.ChooseTexture | Antario/Utils/D3DFont.cpp:113-135 | a side that the device allows is kept at scale 1; otherwise the side is capped to the device maximum and the text is scaled down by the same ratio |
| Atlas.Spacing | Antario/Utils/D3DFont.cpp:196-197 | the glyph spacing is the ceiling of 0.3 times the space's height |
| Atlas.PackFitsOrWraps | Antario/Utils/D3DFont.cpp:199-218 | each glyph either fits on the current row or starts a new row at the spacing; no glyph starts left of the spacing |
| Atlas.PackStartsAtSpacing | Antario/Utils/D3DFont.cpp:199-218 | the first glyph starts one spacing in from the left edge |
| Atlas.PackNext | Antario/Utils/D3DFont.cpp:199-218 | each next glyph goes right after its predecessor plus two spacings, or wraps to a new row one glyph height plus one pixel lower |
| Atlas.GlyphSpan | Antario/Utils/D3DFont.cpp:212-215 | a glyph's u-range spans its width plus two spacings in pixels, and its v-range spans its height |
| Atlas.SameRowGlyphsTouch | Antario/Utils/D3DFont.cpp:212-217 | when two consecutive glyphs are packed on the same row, the second's texture u-range starts exactly where the first's ends, so they never overlap |
| Atlas.PackedInUnitRange | Antario/Utils/D3DFont.cpp:199-218 | when glyphs are narrower than the texture, every u-coordinate is in [0, 1] and every u-range is ordered; every v-range is non-negative and ordered |
| Atlas.PackGlyphs | Antario/Utils/D3DFont.cpp:199-218 | the table's first 95 entries are the packed coordinates; the last entry is untouched |
| Atlas.Texel | Antario/Utils/D3DFont.cpp:232-240 | a texel is transparent exactly when the top four bits of the pixel's low byte are zero; otherwise it is white, with those four bits as its alpha |
| Atlas.TexelMonotone | Antario/Utils/D3DFont.cpp:232-240 | a brighter pixel never gives a less opaque texel |
| Atlas.WriteAlpha | Antario/Utils/D3DFont.cpp:227-243 | every texel is the conversion of the pixel at the same position |
| DrawText.Font.InitDeviceObjects | Antario/Utils/D3DFont.cpp:106-261 | sets the texture size, spacing, packed table and alpha texture as above; the line height is the packed glyph height |
| DrawText.LineHeightOfPackedTable | Antario/Utils/D3DFont.cpp:253-258 | the line height measured on "WJ" is the glyph height used for packing |
| TextMetrics.CStr | Antario/Utils/D3DFont.cpp:382-402 | the text is read up to but not including its first NUL |
| TextMetrics.TerminatorEndsText | Antario/Utils/D3DFont.cpp:382-402 | nothing after a NUL is read |
| TextMetrics.GetTextExtent | Antario/Utils/D3DFont.cpp:372-408 | fails exactly on a null text or a null size; the width is never negative |
| TextMetrics.ExtentHeight | Antario/Utils/D3DFont.cpp:382-405 | the height is the row height times one more than the number of newlines |
| TextMetrics.RowWidthIsLastRow | Antario/Utils/D3DFont.cpp:382-402 | the running row width is the advance sum of the current row |
| TextMetrics.WidthBoundsRows | Antario/Utils/D3DFont.cpp:382-402 | no row, including any unfinished row, is wider than the reported width |
| TextMetrics.WidthIsReached | Antario/Utils/D3DFont.cpp:382-402 | the reported width is zero or the width of some row prefix |
| TextMetrics.WidthIsWidestRow | Antario/Utils/D3DFont.cpp:382-402 | for text whose characters all have non-negative advances, the width is exactly the widest complete row |
| TextMetrics.PackedAdvance | Antario/Utils/D3DFont.cpp:212-217 | with a table written by the packing, a character from space up to but not including DEL advances by the GDI width it was packed with |
| TextMetrics.PackedAdvancesNonNegative | Antario/Utils/D3DFont.cpp:199-218 | with a table written by the packing, text without DEL has only non-negative advances, so `WidthIsWidestRow` applies to it |
| TextMetrics.SingleGlyphRoundTrip | Antario/Utils/D3DFont.cpp:372-408 | measuring one printable character returns the extent that character was packed with |
| DrawText.GlyphVertices | Antario/Utils/D3DFont.cpp:613-649 | a drawn glyph gives 6 vertices, or 12 with a drop shadow; newlines, spaces and characters outside the table give none |
| DrawText.CharacterEffects | Antario/Utils/D3DFont.cpp:603-662 | a newline returns the pen to the start x one row down; a space only advances the pen; a character outside the table is skipped |
| DrawText.StreamLength | Antario/Utils/D3DFont.cpp:603-662 | the text produces 6 (or 12 with shadow) vertices per drawn character |
| DrawText.PenMovesAsMeasured | Antario/Utils/D3DFont.cpp:603-662 | at texture scale 1 the pen advances across a row by exactly the width `GetTextExtent` counts |
| DrawText.BatchesCoverStream | Antario/Utils/D3DFont.cpp:651-668 | the batches submitted concatenate to the whole vertex stream, in order |
| DrawText.BatchesFillBuffer | Antario/Utils/D3DFont.cpp:651-668 | each batch is non-empty and at most 300 vertices, and every batch but the last is exactly 300 |
| DrawText.Font.DrawString | Antario/Utils/D3DFont.cpp:557-674 | fails without a device and draws nothing; otherwise it submits the text's vertex stream, from the centred start pen, as batches |
| DrawText.Font.DrawCharacters | Antario/Utils/D3DFont.cpp:603-668 | the draw calls made are the batches of the vertex stream of the text up to its NUL |
| DrawText.WriteGlyph | Antario/Utils/D3DFont.cpp:621-649 | appends the glyph's quads (shadow first) to the buffer and counts their triangles |
| DrawText.Round | Antario/Utils/D3DFont.cpp:577-592 | rounding is within one half of the input and keeps non-negative inputs non-negative |

## Left out

- Rendering. `Render`, the draw helpers and the menu's visual style are not modelled. Only the logic that decides positions, hover state and values is.
- `DrawStringScaled`, `RestoreDeviceObjects`, `InvalidateDeviceObjects` and the state blocks are not modelled. They only configure the device.
- Device calls. The device's texture creation, `LockRect` and the GDI font and DC calls appear as inputs: the maximum texture width, the glyph extents and the rasterised bits. Their failure returns are not modelled.
- Floating point. `float` is modelled as exact `real`. `ceil(0.3f * h)` is the exact ceiling of 0.3 times h; in single precision `0.3f` is slightly above 0.3, so for some heights the source's spacing is one more (at h = 50 the source gets 16 where `Atlas.Spacing` gives 15; likewise at 90, 100 and 170), and `roundf` rounds halves away from zero (`Round(-2.5)` is -3), as `std::roundf` does.
- Unsigned arithmetic. `DWORD` overflow of texture coordinates does not occur for the sizes in the source, and it is not modelled.
- Texture rows. The texture's row pitch is abstracted: the texture is an `array2` indexed by row and column.
- Atlas.PackedInUnitRange: v is not bounded above by 1, because the packing never checks the texture's height; only u is bounded.
- Widgets.BaseWindow.UpdateData: lays out with the corrected column wrap, not the `flUsedArea = 0` of Menu.cpp:205; the as-written layout is `Layout.WrappedColumnOverlaps` (see Findings).
- TextMetrics.PackedAdvancesNonNegative: excludes DEL, whose table entry the packing never writes, so its advance is unknown.
- Atlas.PackGlyphs: the last table entry (character 127) is never written by the packing loop, so the model leaves it as it was.
- Construction. `AddChild`, `Initialize`, the `MenuMain` constructor and the widgets' constructors are modelled only as far as they set sizes. A child list is fixed once built.
- Nesting. The model's tree has a fixed depth: the root holds windows, a window holds sections or leaf controls, and a section holds only leaf controls. `MenuMain::AddChild` (Menu.cpp:92) accepts any menu object, so a section inside a section or a window inside a window is outside the model; the menu that `Initialize` builds (Menu.cpp:676-698) keeps to this shape.
- Widgets.Checkbox.UpdateData: the tick-box size passes through `roundf` in the source; the model keeps it exact.
- Widgets.Slider.UpdateData: requires `min < max` and a positive width, since the source divides by the range; `Slider<int>` and `Slider<float>` are one class, and the integral case truncates.
- Loop bodies. The draw loop's body is split into `DrawCharacters` and `WriteGlyph`, and the combo box's option loop into `ScanOptions`. Each is a piece of the single source function it names.
- DrawText.PenMovesAsMeasured: holds only at texture scale 1; `GetTextExtent` ignores the texture scale that `DrawString` divides by.
- `Antario/Features/ESP.cpp` and `Antario/Settings.h` are not part of this model. They only use the menu and the font.

## Findings

| source | as written | input that shows it | evidently intended | confidence | as-written member | corrected member |
|---|---|---|---|---|---|---|
| Antario/Menu.cpp:203-205 | when a window's child does not fit, the column wraps: the running height is reset to 0 and the header height is added to that child's y only | window at (0,0) of size 200×100, header 14, paddings 10×6, children 50×80, 50×10, 50×10: the second child is at y 20 and spans 20–30, the third is placed at y 22 | the running height after a wrap continues below the wrapped child, so children in a wrapped column do not overlap | not executed | Layout.WrappedColumnOverlaps | Layout.WindowPlaceStacks |

=== FILE: atlas.dfy ===
/**
 * The font atlas built by CD3DFont::InitDeviceObjects (Antario/Utils/D3DFont.cpp):
 * the choice of texture size, the packing of the printable characters into
 * the texture with their texture coordinates, and the conversion of the
 * rasterized 8-bit intensities into A4R4G4B4 texels.
 *
 * The glyph extents and the rasterized bitmap come from GDI; they are inputs here.
 */
module Atlas {

  // ---------------------------------------------------------------------------
  // Texture size
  // ---------------------------------------------------------------------------

  /** The side of the square texture requested for a font of the given height. */
  function RequestedSide(fontHeight: nat): (side: nat)
    ensures side == 256 || side == 512 || side == 1024 || side == 2048
    ensures fontHeight > 60 <==> side == 2048
    ensures 30 < fontHeight <= 60 <==> side == 1024
    ensures 15 < fontHeight <= 30 <==> side == 512
    ensures fontHeight <= 15 <==> side == 256
  {
    if fontHeight > 60 then 2048
    else if fontHeight > 30 then 1024
    else if fontHeight > 15 then 512
    else 256
  }

  /** A larger font never gets a smaller texture. */
  lemma RequestedSideMonotone(h1: nat, h2: nat)
    requires h1 <= h2
    ensures RequestedSide(h1) <= RequestedSide(h2)
  {
  }

  /** The texture actually created and the scale at which glyphs are rasterized into it. */
  datatype TextureSize = TextureSize(side: nat, scale: real)

  /**
   * The requested side, shrunk to the device's maximum texture width when it
   * is larger; the font is then rasterized smaller by `scale` and drawn
   * scaled back up.
   */
  function ChooseTexture(fontHeight: nat, maxTextureWidth: nat): (t: TextureSize)
    ensures t.side <= maxTextureWidth || t.side == RequestedSide(fontHeight)
    ensures t.side <= RequestedSide(fontHeight)
    ensures RequestedSide(fontHeight) <= maxTextureWidth ==> t == TextureSize(RequestedSide(fontHeight), 1.0)
    ensures RequestedSide(fontHeight) > maxTextureWidth ==>
      t.side == maxTextureWidth && t.scale * RequestedSide(fontHeight) as real == maxTextureWidth as real
    ensures maxTextureWidth > 0 ==> 0.0 < t.scale <= 1.0 && 0 < t.side <= maxTextureWidth
  {
    var requested := RequestedSide(fontHeight);
    if requested > maxTextureWidth then
      TextureSize(maxTextureWidth, maxTextureWidth as real / requested as real)
    else
      TextureSize(requested, 1.0)
  }

  // ---------------------------------------------------------------------------
  // Glyph packing
  // ---------------------------------------------------------------------------

  /** The pixel extent GDI reports for one character. */
  datatype Extent = Extent(cx: nat, cy: nat)

  /** A glyph's texture coordinates: left, top, right, bottom, as fractions of the texture. */
  datatype TexCoord = TexCoord(u1: real, v1: real, u2: real, v2: real)

  /** The number of characters packed: codes 32 to 126. */
  const PackedCount := 95

  /** The size of the texture-coordinate table: codes 32 to 127. */
  const TableSize := 96

  /**
   * The gap left around every glyph: 30% of the height of a space,
   * rounded up.
   */
  function Spacing(spaceHeight: nat): (sp: nat)
    ensures 10 * sp >= 3 * spaceHeight
    ensures 10 * sp < 3 * spaceHeight + 10
  {
    (3 * spaceHeight + 9) / 10
  }

  /** Where a glyph's text is drawn into the bitmap. */
  datatype Slot = Slot(x: nat, y: nat)

  /** The slot of the next glyph: at the pen, or at the start of a new row when it would cross the right edge. */
  function PlaceGlyph(x: nat, y: nat, e: Extent, spacing: nat, texWidth: nat): Slot
  {
    if x + e.cx + spacing > texWidth then Slot(spacing, y + e.cy + 1) else Slot(x, y)
  }

  /** The slots of the glyphs `exts`, packed row by row from the pen (`x`, `y`). */
  function Pack(exts: seq<Extent>, spacing: nat, texWidth: nat, x: nat, y: nat): (slots: seq<Slot>)
    ensures |slots| == |exts|
    decreases |exts|
  {
    if exts == [] then []
    else
      var s := PlaceGlyph(x, y, exts[0], spacing, texWidth);
      [s] + Pack(exts[1..], spacing, texWidth, s.x + exts[0].cx + 2 * spacing, s.y)
  }

  /**
   * Every glyph either fits left of the right edge, spacing included, or
   * starts a new row; and no glyph is placed left of the spacing, so the
   * left texture coordinate never goes below 0.
   */
  lemma {:induction false} PackFitsOrWraps(exts: seq<Extent>, spacing: nat, texWidth: nat, x: nat, y: nat)
    ensures var slots := Pack(exts, spacing, texWidth, x, y);
      forall k :: 0 <= k < |slots| ==> slots[k].x + exts[k].cx + spacing <= texWidth || slots[k].x == spacing
    ensures var slots := Pack(exts, spacing, texWidth, x, y);
      x >= spacing ==> forall k :: 0 <= k < |slots| ==> slots[k].x >= spacing
    decreases |exts|
  {
    if exts != [] {
      var s := PlaceGlyph(x, y, exts[0], spacing, texWidth);
      var rest := Pack(exts[1..], spacing, texWidth, s.x + exts[0].cx + 2 * spacing, s.y);
      PackFitsOrWraps(exts[1..], spacing, texWidth, s.x + exts[0].cx + 2 * spacing, s.y);
      assert Pack(exts, spacing, texWidth, x, y) == [s] + rest;
    }
  }

  /** The texture-coordinate table the packing produces for the glyphs `exts`. */
  function PackedTable(exts: seq<Extent>, spacing: nat, texWidth: nat, texHeight: nat): (t: seq<TexCoord>)
    requires texWidth > 0 && texHeight > 0
    ensures |t| == |exts|
  {
    var slots := PackAll(exts, spacing, texWidth);
    seq(|exts|, k requires 0 <= k < |exts| => GlyphCoords(slots[k], exts[k], spacing, texWidth, texHeight))
  }

  /** The packing of the whole character set, with the pen starting at (`spacing`, 0). */
  function PackAll(exts: seq<Extent>, spacing: nat, texWidth: nat): seq<Slot>
  {
    Pack(exts, spacing, texWidth, spacing, 0)
  }

  /** The texture coordinates recorded for a glyph: its slot widened by the spacing on both sides. */
  function GlyphCoords(s: Slot, e: Extent, spacing: nat, texWidth: nat, texHeight: nat): TexCoord
    requires texWidth > 0 && texHeight > 0
  {
    TexCoord((s.x as int - spacing) as real / texWidth as real, s.y as real / texHeight as real,
             (s.x + e.cx + spacing) as real / texWidth as real, (s.y + e.cy) as real / texHeight as real)
  }

  /** The slots from the `c`-th glyph on are those packed from the pen (`x`, `y`). */
  predicate PackedFrom(exts: seq<Extent>, spacing: nat, texWidth: nat, c: nat, x: nat, y: nat, all: seq<Slot>)
  {
    c <= |exts| && c <= |all| && Pack(exts[c..], spacing, texWidth, x, y) == all[c..]
  }

  /** One step of Pack, read off the suffix it has left to pack. */
  lemma PackAdvance(exts: seq<Extent>, spacing: nat, texWidth: nat, c: nat, x: nat, y: nat, all: seq<Slot>)
    requires c < |exts| && PackedFrom(exts, spacing, texWidth, c, x, y, all)
    ensures c < |all| && all[c] == PlaceGlyph(x, y, exts[c], spacing, texWidth)
    ensures var s := all[c];
      PackedFrom(exts, spacing, texWidth, c + 1, s.x + exts[c].cx + 2 * spacing, s.y, all)
  {
    assert exts[c..][1..] == exts[c + 1..];
  }

  /** The first glyph is placed at x = spacing, whether or not it starts a new row. */
  lemma PackStartsAtSpacing(exts: seq<Extent>, spacing: nat, texWidth: nat)
    requires |exts| > 0
    ensures PackAll(exts, spacing, texWidth)[0].x == spacing
  {
  }

  /**
   * Consecutive glyphs: the pen moves past the previous glyph by its width
   * plus twice the spacing; a glyph that would then cross the right edge
   * starts a new row at x = spacing, one pixel below its own height.
   */
  lemma PackStep(exts: seq<Extent>, spacing: nat, texWidth: nat, x: nat, y: nat, k: nat)
    requires k + 1 < |exts|
    ensures var slots := Pack(exts, spacing, texWidth, x, y);
      var pen := slots[k].x + exts[k].cx + 2 * spacing;
      && (pen + exts[k + 1].cx + spacing > texWidth ==>
            slots[k + 1] == Slot(spacing, slots[k].y + exts[k + 1].cy + 1))
      && (pen + exts[k + 1].cx + spacing <= texWidth ==> slots[k + 1] == Slot(pen, slots[k].y))
  {
    PackNext(exts, spacing, texWidth, x, y, k);
  }

  /** Each slot after the first is placed from the pen left by the slot before it. */
  lemma {:induction false} PackNext(exts: seq<Extent>, spacing: nat, texWidth: nat, x: nat, y: nat, k: nat)
    requires k + 1 < |exts|
    ensures var slots := Pack(exts, spacing, texWidth, x, y);
      slots[k + 1] == PlaceGlyph(slots[k].x + exts[k].cx + 2 * spacing, slots[k].y, exts[k + 1], spacing, texWidth)
    decreases k
  {
    var slots := Pack(exts, spacing, texWidth, x, y);
    var s := PlaceGlyph(x, y, exts[0], spacing, texWidth);
    var tail := exts[1..];
    var rest := Pack(tail, spacing, texWidth, s.x + exts[0].cx + 2 * spacing, s.y);
    assert slots == [s] + rest;
    if k > 0 {
      PackNext(tail, spacing, texWidth, s.x + exts[0].cx + 2 * spacing, s.y, k - 1);
      assert slots[k] == rest[k - 1] && slots[k + 1] == rest[k];
      assert tail[k - 1] == exts[k] && tail[k] == exts[k + 1];
    } else {
      assert tail[0] == exts[1];
      assert rest[0] == PlaceGlyph(s.x + exts[0].cx + 2 * spacing, s.y, exts[1], spacing, texWidth);
      assert slots[0] == s && slots[1] == rest[0];
    }
  }

  /** The u-range of a glyph spans exactly its width plus twice the spacing, in pixels. */
  lemma GlyphSpan(s: Slot, e: Extent, spacing: nat, texWidth: nat, texHeight: nat)
    requires texWidth > 0 && texHeight > 0
    ensures var t := GlyphCoords(s, e, spacing, texWidth, texHeight);
      && (t.u2 - t.u1) * texWidth as real == (e.cx + 2 * spacing) as real
      && (t.v2 - t.v1) * texHeight as real == e.cy as real
  {
    var w := texWidth as real;
    var h := texHeight as real;
    var a := (s.x + e.cx + spacing) as real;
    var b := (s.x as int - spacing) as real;
    assert (a / w - b / w) * w == a - b;
    assert ((s.y + e.cy) as real / h - s.y as real / h) * h == e.cy as real;
  }

  /**
   * Two glyphs packed one after the other on the same row touch in u: the
   * right edge of the first is the left edge of the second, so their
   * u-ranges never overlap.
   */
  lemma SameRowGlyphsTouch(exts: seq<Extent>, spacing: nat, texWidth: nat, texHeight: nat, k: nat)
    requires k + 1 < |exts| && texWidth > 0 && texHeight > 0
    requires var slots := PackAll(exts, spacing, texWidth); slots[k + 1].y == slots[k].y
    ensures var slots := PackAll(exts, spacing, texWidth);
      GlyphCoords(slots[k + 1], exts[k + 1], spacing, texWidth, texHeight).u1
        == GlyphCoords(slots[k], exts[k], spacing, texWidth, texHeight).u2
  {
    PackStep(exts, spacing, texWidth, spacing, 0, k);
  }

  /**
   * Given every glyph fits on a fresh row, every u-coordinate recorded lies
   * in [0, 1], and every v-range is non-negative and ordered. Nothing bounds
   * v from above: the packing never checks the texture's height.
   */
  lemma PackedInUnitRange(exts: seq<Extent>, spacing: nat, texWidth: nat, texHeight: nat)
    requires texWidth > 0 && texHeight > 0
    requires forall k :: 0 <= k < |exts| ==> exts[k].cx + 2 * spacing <= texWidth
    ensures var slots := PackAll(exts, spacing, texWidth);
      forall k :: 0 <= k < |exts| ==>
        var t := GlyphCoords(slots[k], exts[k], spacing, texWidth, texHeight);
        0.0 <= t.u1 <= t.u2 <= 1.0 && 0.0 <= t.v1 <= t.v2
  {
    var slots := PackAll(exts, spacing, texWidth);
    PackFitsOrWraps(exts, spacing, texWidth, spacing, 0);
    forall k | 0 <= k < |exts|
      ensures var t := GlyphCoords(slots[k], exts[k], spacing, texWidth, texHeight);
        0.0 <= t.u1 <= t.u2 <= 1.0 && 0.0 <= t.v1 <= t.v2
    {
      var right := slots[k].x + exts[k].cx + spacing;
      assert right <= texWidth;
      UnitFraction(slots[k].x - spacing, right, texWidth);
      DivMonotone(slots[k].y as real, (slots[k].y + exts[k].cy) as real, texHeight as real);
      DivMonotone(0.0, slots[k].y as real, texHeight as real);
    }
  }

  /** a/w <= b/w <= 1 for 0 <= a <= b <= w. */
  lemma UnitFraction(a: nat, b: nat, w: nat)
    requires a <= b <= w && w > 0
    ensures 0.0 <= a as real / w as real <= b as real / w as real <= 1.0
  {
    DivMonotone(0.0, a as real, w as real);
    DivMonotone(a as real, b as real, w as real);
    DivMonotone(b as real, w as real, w as real);
  }

  lemma DivMonotone(p: real, q: real, w: real)
    requires p <= q && w > 0.0
    ensures p / w <= q / w
  {
  }

  /**
   * The packing loop of InitDeviceObjects: fill `table` with the texture
   * coordinates of characters 32 to 126. Entry 95 (character 127) is never
   * written.
   */
  method PackGlyphs(table: array<TexCoord>, exts: seq<Extent>, spacing: nat, texWidth: nat, texHeight: nat)
    requires table.Length == TableSize && |exts| == PackedCount
    requires texWidth > 0 && texHeight > 0
    modifies table
    ensures table[..PackedCount] == PackedTable(exts, spacing, texWidth, texHeight)
    ensures table[PackedCount] == old(table[PackedCount])
  {
    ghost var slots := PackAll(exts, spacing, texWidth);
    ghost var coords := PackedTable(exts, spacing, texWidth, texHeight);
    var x: nat := spacing;
    var y: nat := 0;
    var c := 32;
    while c < 127
      invariant 32 <= c <= 127
      invariant x >= spacing
      invariant PackedFrom(exts, spacing, texWidth, c - 32, x, y, slots)
      invariant forall k :: 0 <= k < c - 32 ==> table[k] == coords[k]
      invariant table[PackedCount] == old(table[PackedCount])
    {
      var e := exts[c - 32];
      PackAdvance(exts, spacing, texWidth, c - 32, x, y, slots);
      if x + e.cx + spacing > texWidth {
        x := spacing;
        y := y + e.cy + 1;
      }
      ghost var s := slots[c - 32];
      assert x == s.x && y == s.y;
      table[c - 32] := GlyphCoords(Slot(x, y), e, spacing, texWidth, texHeight);
      x := x + e.cx + 2 * spacing;
      c := c + 1;
    }
  }

  // ---------------------------------------------------------------------------
  // Texel conversion
  // ---------------------------------------------------------------------------

  /** The 4-bit alpha taken from the top nibble of a pixel's low (blue) byte. */
  function Alpha(pixel: bv32): (a: bv16)
    ensures a < 16
  {
    ((pixel & 0xff) >> 4) as bv16
  }

  /** The A4R4G4B4 texel written for a rasterized pixel: white with the pixel's alpha, or fully clear. */
  function Texel(pixel: bv32): (t: bv16)
    ensures t == 0 <==> pixel & 0xf0 == 0
    ensures t != 0 ==> t & 0x0fff == 0x0fff && t >> 12 == Alpha(pixel)
  {
    var a := Alpha(pixel);
    if a > 0 then (a << 12) | 0x0fff else 0
  }

  /** A brighter pixel never gets a more transparent texel. */
  lemma TexelMonotone(p: bv32, q: bv32)
    requires p & 0xff <= q & 0xff
    ensures Texel(p) <= Texel(q)
  {
  }

  /**
   * The alpha loop of InitDeviceObjects: every texel of the locked texture
   * is computed from the bitmap pixel at the same row and column.
   */
  method WriteAlpha(bits: array2<bv32>, texture: array2<bv16>)
    requires texture.Length0 == bits.Length0 && texture.Length1 == bits.Length1
    modifies texture
    ensures forall y, x :: 0 <= y < texture.Length0 && 0 <= x < texture.Length1 ==>
      texture[y, x] == Texel(bits[y, x])
  {
    var y := 0;
    while y < texture.Length0
      invariant 0 <= y <= texture.Length0
      invariant forall r, x :: 0 <= r < y && 0 <= x < texture.Length1 ==> texture[r, x] == Texel(bits[r, x])
    {
      var x := 0;
      while x < texture.Length1
        invariant 0 <= x <= texture.Length1
        invariant forall r, col :: 0 <= r < y && 0 <= col < texture.Length1 ==> texture[r, col] == Texel(bits[r, col])
        invariant forall col :: 0 <= col < x ==> texture[y, col] == Texel(bits[y, col])
      {
        var alpha := ((bits[y, x] & 0xff) >> 4) as bv16;
        if alpha > 0 {
          texture[y, x] := (alpha << 12) | 0x0fff;
        } else {
          texture[y, x] := 0x0000;
        }
        x := x + 1;
      }
      y := y + 1;
    }
  }
}

=== FILE: cursor.dfy ===
/**
 * The menu's mouse cursor (Antario/Menu.cpp, MouseCursor).
 *
 * Raw window messages update the pointer position and, per button, a
 * `pressed` flag (a one-message pulse) and a `held` flag (a level).
 */
module Cursor {

  /** A screen point or extent; the source's Vector2D of floats. */
  datatype Vec2 = Vec2(x: real, y: real) {
    function Plus(o: Vec2): Vec2 { Vec2(x + o.x, y + o.y) }
    function Minus(o: Vec2): Vec2 { Vec2(x - o.x, y - o.y) }
  }

  /** The window messages the cursor reacts to, already decoded; every other message is OtherMessage. */
  datatype InputEvent =
    | MouseMove(x: real, y: real)      // WM_MOUSEMOVE
    | NcMouseMove(x: real, y: real)    // WM_NCMOUSEMOVE
    | LButtonDown
    | LButtonUp
    | RButtonDown
    | RButtonUp
    | OtherMessage

  datatype ButtonState = ButtonState(pressed: bool, held: bool)

  datatype CursorState = CursorState(pos: Vec2, lmb: ButtonState, rmb: ButtonState)

  /** A button state that the edge latch can leave behind: a pulse is always also held. */
  predicate Settled(b: ButtonState) { b.pressed ==> b.held }

  /** The message switch of RunThink, before the edge latch runs. */
  function ApplyEvent(s: CursorState, ev: InputEvent): CursorState
  {
    match ev
    case MouseMove(x, y) => s.(pos := Vec2(x, y))
    case NcMouseMove(x, y) => s.(pos := Vec2(x, y))
    case LButtonDown => s.(lmb := s.lmb.(pressed := true))
    case LButtonUp => s.(lmb := ButtonState(false, false))
    case RButtonDown => s.(rmb := s.rmb.(pressed := true))
    case RButtonUp => s.(rmb := ButtonState(false, false))
    case OtherMessage => s
  }

  /**
   * The edge latch run on each button after every message: a pending press
   * survives only if the button was not held already, and the button is held
   * from then on.
   */
  function Latch(b: ButtonState): (r: ButtonState)
    ensures Settled(r)
    ensures r.held <==> b.held || b.pressed
    ensures r.pressed <==> b.pressed && !b.held
  {
    if b.pressed then ButtonState(!b.held, true) else b
  }

  /** One call of MouseCursor::RunThink, as a function of the old state. */
  function Think(s: CursorState, ev: InputEvent): (r: CursorState)
    ensures Settled(r.lmb) && Settled(r.rmb)
  {
    var t := ApplyEvent(s, ev);
    t.(lmb := Latch(t.lmb), rmb := Latch(t.rmb))
  }

  /** The states after each message of `evs`, starting from `s`. */
  function Trace(s: CursorState, evs: seq<InputEvent>): (t: seq<CursorState>)
    ensures |t| == |evs|
    ensures |evs| > 0 ==> t[0] == Think(s, evs[0])
    ensures forall i :: 0 < i < |evs| ==> t[i] == Think(t[i - 1], evs[i])
    decreases evs
  {
    if evs == [] then []
    else
      var first := Think(s, evs[0]);
      [first] + Trace(first, evs[1..])
  }

  /** The hit test every widget uses: strict containment on all four edges. */
  function InBounds(p: Vec2, topLeft: Vec2, bottomRight: Vec2): (r: bool)
    ensures r ==> topLeft.x < bottomRight.x && topLeft.y < bottomRight.y
    ensures p.x == topLeft.x || p.x == bottomRight.x || p.y == topLeft.y || p.y == bottomRight.y ==> !r
  {
    p.x > topLeft.x && p.x < bottomRight.x && p.y > topLeft.y && p.y < bottomRight.y
  }

  /** A left-button down yields a press pulse exactly when the button was not held already. */
  lemma DownPulsesOnlyWhenNotHeld(s: CursorState)
    ensures Think(s, LButtonDown).lmb.pressed <==> !s.lmb.held
    ensures Think(s, LButtonDown).lmb.held
  {
  }

  /** An up event clears both flags of its own button; the other button keeps its level. */
  lemma UpClearsOnlyItsButton(s: CursorState)
    requires Settled(s.lmb) && Settled(s.rmb)
    ensures Think(s, LButtonUp).lmb == ButtonState(false, false)
    ensures Think(s, LButtonUp).rmb == ButtonState(false, s.rmb.held)
    ensures Think(s, RButtonUp).rmb == ButtonState(false, false)
    ensures Think(s, RButtonUp).lmb == ButtonState(false, s.lmb.held)
    ensures Think(s, LButtonUp).pos == s.pos && Think(s, RButtonUp).pos == s.pos
  {
  }

  /** A move only overwrites the position: the buttons evolve as for any other non-button message. */
  lemma MoveOnlySetsPosition(s: CursorState, x: real, y: real)
    ensures Think(s, MouseMove(x, y)) == Think(s, OtherMessage).(pos := Vec2(x, y))
    ensures Think(s, NcMouseMove(x, y)) == Think(s, OtherMessage).(pos := Vec2(x, y))
  {
  }

  /** A message that is not a press or release of the left button. */
  predicate LeftNeutral(e: InputEvent) { !e.LButtonDown? && !e.LButtonUp? }

  /**
   * A click: down, then any number of other messages, then up. The press pulse
   * is seen exactly once, after the down message; the button is held from the
   * down message until the up message, after which both flags are clear.
   */
  lemma {:induction false} ClickPulsesOnce(s: CursorState, between: seq<InputEvent>)
    requires !s.lmb.held
    requires forall i :: 0 <= i < |between| ==> LeftNeutral(between[i])
    ensures var t := Trace(s, [LButtonDown] + between + [LButtonUp]);
      && t[0].lmb == ButtonState(true, true)
      && (forall i :: 1 <= i <= |between| ==> t[i].lmb == ButtonState(false, true))
      && t[|between| + 1].lmb == ButtonState(false, false)
  {
    var evs := [LButtonDown] + between + [LButtonUp];
    var t := Trace(s, evs);
    assert t[0].lmb == ButtonState(true, true);
    var i := 1;
    while i <= |between|
      invariant 1 <= i <= |between| + 1
      invariant forall j :: 1 <= j < i ==> t[j].lmb == ButtonState(false, true)
      invariant t[i - 1].lmb.held
    {
      assert evs[i] == between[i - 1];
      assert t[i] == Think(t[i - 1], evs[i]);
      i := i + 1;
    }
    assert evs[|between| + 1] == LButtonUp;
  }

  class MouseCursor {
    var pos: Vec2
    var lmbPressed: bool
    var lmbHeld: bool
    var rmbPressed: bool
    var rmbHeld: bool

    function State(): CursorState
      reads this
    {
      CursorState(pos, ButtonState(lmbPressed, lmbHeld), ButtonState(rmbPressed, rmbHeld))
    }

    /** MouseCursor::RunThink: apply one message, then run the edge latch on both buttons. */
    method RunThink(ev: InputEvent)
      modifies this
      ensures State() == Think(old(State()), ev)
      ensures lmbPressed ==> lmbHeld
      ensures rmbPressed ==> rmbHeld
    {
      match ev {
        case MouseMove(x, y) => pos := Vec2(x, y);
        case NcMouseMove(x, y) => pos := Vec2(x, y);
        case LButtonDown => lmbPressed := true;
        case LButtonUp =>
          lmbHeld := false;
          lmbPressed := false;
        case RButtonDown => rmbPressed := true;
        case RButtonUp =>
          rmbHeld := false;
          rmbPressed := false;
        case OtherMessage =>
      }
      if lmbPressed {
        if lmbHeld {
          lmbPressed := false;
        }
        lmbHeld := true;
      }
      if rmbPressed {
        if rmbHeld {
          rmbPressed := false;
        }
        rmbHeld := true;
      }
    }

    /** MouseCursor::IsInBounds on the current pointer position. */
    function IsInBounds(topLeft: Vec2, bottomRight: Vec2): bool
      reads this
    {
      InBounds(pos, topLeft, bottomRight)
    }
  }
}

=== FILE: drawtext.dfy ===
/**
 * The texture-atlas font object, CD3DFont (Antario/Utils/D3DFont.cpp):
 * building its atlas (InitDeviceObjects) and drawing a string as a stream
 * of textured triangles, written into a vertex buffer of MAX_NUM_VERTICES
 * vertices that is flushed to the device whenever it is full (DrawString).
 *
 * The device is represented by a log of its draw calls: each DrawPrimitive
 * call appends the vertices it was given.
 */
module DrawText {
  import opened Wrappers
  import opened Atlas
  import opened TextMetrics
  import Layout

  /** MAX_NUM_VERTICES: the capacity of the vertex buffer. */
  const MaxVertices := 50 * 6

  /** The colour of the drop shadow. */
  const ShadowColor: bv32 := 0x9a000000

  /** A transformed, lit vertex: screen position, colour and texture coordinates. */
  datatype Vertex = Vertex(x: real, y: real, color: bv32, tu: real, tv: real)

  /** The DrawString flags this model reacts to (CD3DFONT_FILTERED only sets sampler state). */
  datatype DrawFlags = DrawFlags(filtered: bool, centeredX: bool, centeredY: bool, dropShadow: bool)

  /** HRESULT, reduced to the two outcomes DrawString has: S_OK and E_FAIL. */
  datatype Status = Ok | Failed

  /** The drawing position. */
  datatype Pen = Pen(x: real, y: real)

  /** std::roundf: to the nearest integer, halves away from zero. */
  function Round(r: real): (n: int)
    ensures -0.5 <= r - n as real <= 0.5
    ensures r >= 0.0 ==> n >= 0
  {
    if r >= 0.0 then (r + 0.5).Floor else -((-r + 0.5).Floor)
  }

  /** The two triangles that cover a glyph's rectangle, moved by `d` pixels on both axes. */
  function Quad(x: real, y: real, w: real, h: real, color: bv32, t: TexCoord, d: real): (q: seq<Vertex>)
    ensures |q| == 6
  {
    [Vertex(x + d, y + h + d, color, t.u1, t.v2),
     Vertex(x + d, y + d, color, t.u1, t.v1),
     Vertex(x + w + d, y + h + d, color, t.u2, t.v2),
     Vertex(x + w + d, y + d, color, t.u2, t.v1),
     Vertex(x + w + d, y + h + d, color, t.u2, t.v2),
     Vertex(x + d, y + d, color, t.u1, t.v1)]
  }

  /** What drawing and the font's own state need: one table entry per code 32 to 127 and a positive scale. */
  predicate MetricsOk(m: FontMetrics) { TableOk(m) && m.textScale > 0.0 }

  /** The on-screen width of a character's glyph, spacing included, scaled back up by the texture scale. */
  function GlyphWidth(m: FontMetrics, c: char): real
    requires MetricsOk(m) && InTable(c)
  {
    var t := Entry(m, c);
    (t.u2 - t.u1) * m.texWidth as real / m.textScale
  }

  function GlyphHeight(m: FontMetrics, c: char): real
    requires MetricsOk(m) && InTable(c)
  {
    var t := Entry(m, c);
    (t.v2 - t.v1) * m.texHeight as real / m.textScale
  }

  /** Characters that produce vertices: those with a table entry, except the space. */
  predicate Drawn(c: char) { InTable(c) && c != ' ' }

  /** The vertices for one character at `pen`: the shadow quad first when asked for, then the glyph quad. */
  function GlyphVertices(m: FontMetrics, c: char, pen: Pen, color: bv32, shadow: bool): (vs: seq<Vertex>)
    requires MetricsOk(m)
    ensures |vs| == if !Drawn(c) then 0 else if shadow then 12 else 6
  {
    if !Drawn(c) then []
    else
      var t := Entry(m, c);
      var w := GlyphWidth(m, c);
      var h := GlyphHeight(m, c);
      (if shadow then Quad(pen.x, pen.y, w, h, ShadowColor, t, 0.5) else [])
        + Quad(pen.x, pen.y, w, h, color, t, -0.5)
  }

  /**
   * The pen after a character: a line break returns to the start column one
   * row lower; a character with a table entry then moves right by its glyph
   * width less the spacing on both sides; any other character leaves it.
   */
  function NextPen(m: FontMetrics, c: char, pen: Pen, startX: real): Pen
    requires MetricsOk(m)
  {
    var p := if c == '\n' then Pen(startX, pen.y + RowHeight(m)) else pen;
    if InTable(c) then Pen(p.x + GlyphWidth(m, c) - 2.0 * m.spacing as real, p.y) else p
  }

  /** The vertices drawing `t` from `pen` produces, in order. */
  function Stream(m: FontMetrics, t: seq<char>, pen: Pen, startX: real, color: bv32, shadow: bool): seq<Vertex>
    requires MetricsOk(m)
    decreases |t|
  {
    if t == [] then []
    else GlyphVertices(m, t[0], pen, color, shadow) + Stream(m, t[1..], NextPen(m, t[0], pen, startX), startX, color, shadow)
  }

  /** The pen after drawing `t` from `pen`. */
  function EndPen(m: FontMetrics, t: seq<char>, pen: Pen, startX: real): Pen
    requires MetricsOk(m)
    decreases |t|
  {
    if t == [] then pen else EndPen(m, t[1..], NextPen(m, t[0], pen, startX), startX)
  }

  /** Where DrawString starts: centred on the measured extent when asked, then moved left by the spacing. */
  function StartPen(m: FontMetrics, sx: real, sy: real, text: seq<char>, flags: DrawFlags): Pen
    requires MetricsOk(m)
  {
    var size := GetTextExtent(m, Some(text), true).value;
    var x := if flags.centeredX then Round(sx - size.cx as real * 0.5) as real else sx;
    var y := if flags.centeredY then Round(sy - size.cy as real * 0.5) as real else sy;
    Pen(x - m.spacing as real, y)
  }

  /** All the vertices DrawString produces for `text`. */
  function TextVertices(m: FontMetrics, sx: real, sy: real, color: bv32, text: seq<char>, flags: DrawFlags): seq<Vertex>
    requires MetricsOk(m)
  {
    var start := StartPen(m, sx, sy, text, flags);
    Stream(m, CStr(text), start, start.x, color, flags.dropShadow)
  }

  // ---------------------------------------------------------------------------
  // Batching
  // ---------------------------------------------------------------------------

  /** A vertex stream cut into draw calls of MaxVertices vertices each, the last one possibly shorter. */
  function Batches(s: seq<Vertex>): seq<seq<Vertex>>
    decreases |s|
  {
    if s == [] then []
    else if |s| <= MaxVertices then [s]
    else [s[..MaxVertices]] + Batches(s[MaxVertices..])
  }

  function Flatten(bs: seq<seq<Vertex>>): seq<Vertex>
    decreases |bs|
  {
    if bs == [] then [] else bs[0] + Flatten(bs[1..])
  }

  /** The draw calls together draw the whole stream, in order. */
  lemma {:induction false} BatchesCoverStream(s: seq<Vertex>)
    ensures Flatten(Batches(s)) == s
    decreases |s|
  {
    if |s| > MaxVertices {
      var rest := Batches(s[MaxVertices..]);
      BatchesCoverStream(s[MaxVertices..]);
      assert Batches(s) == [s[..MaxVertices]] + rest;
      assert (Batches(s))[1..] == rest;
      assert s == s[..MaxVertices] + s[MaxVertices..];
    } else if s != [] {
      assert Batches(s) == [s];
      assert [s][1..] == [];
    }
  }

  /**
   * No draw call is empty or holds more than the buffer's capacity, and
   * every call but the last is a full buffer.
   */
  lemma {:induction false} BatchesFillBuffer(s: seq<Vertex>)
    ensures forall k :: 0 <= k < |Batches(s)| ==>
      0 < |Batches(s)[k]| <= MaxVertices && (k < |Batches(s)| - 1 ==> |Batches(s)[k]| == MaxVertices)
    decreases |s|
  {
    if |s| > MaxVertices {
      BatchesFillBuffer(s[MaxVertices..]);
      var rest := Batches(s[MaxVertices..]);
      var bs := Batches(s);
      assert bs == [s[..MaxVertices]] + rest;
      assert rest != [];
      forall k | 0 <= k < |bs|
        ensures 0 < |bs[k]| <= MaxVertices && (k < |bs| - 1 ==> |bs[k]| == MaxVertices)
      {
        if k > 0 {
          assert bs[k] == rest[k - 1];
        } else {
          assert bs[0] == s[..MaxVertices];
        }
      }
    }
  }

  /** A full buffer at the front of the stream is exactly the first draw call. */
  lemma FullBatchFirst(b: seq<Vertex>, rest: seq<Vertex>)
    requires |b| == MaxVertices
    ensures Batches(b + rest) == [b] + Batches(rest)
  {
    var s := b + rest;
    if rest != [] {
      assert s[..MaxVertices] == b && s[MaxVertices..] == rest;
    } else {
      assert s == b;
    }
  }

  /** Drawing a full buffer moves it from the pending vertices to the draw calls. */
  lemma DrawFullBuffer(calls: seq<seq<Vertex>>, b: seq<Vertex>, rest: seq<Vertex>)
    requires |b| == MaxVertices
    ensures calls + Batches(b + rest) == (calls + [b]) + Batches([] + rest)
  {
    FullBatchFirst(b, rest);
    assert [] + rest == rest;
  }

  /** A short remainder is one last draw call, or none when it is empty. */
  lemma LastBatch(b: seq<Vertex>)
    requires |b| <= MaxVertices
    ensures Batches(b) == if b == [] then [] else [b]
  {
  }

  /** The number of characters that produce vertices. */
  function DrawnCount(t: seq<char>): nat
    decreases |t|
  {
    if t == [] then 0 else (if Drawn(t[0]) then 1 else 0) + DrawnCount(t[1..])
  }

  /** Every drawn glyph adds 6 vertices, or 12 with a drop shadow; nothing else adds any. */
  lemma {:induction false} StreamLength(m: FontMetrics, t: seq<char>, pen: Pen, startX: real, color: bv32, shadow: bool)
    requires MetricsOk(m)
    ensures |Stream(m, t, pen, startX, color, shadow)| == (if shadow then 12 else 6) * DrawnCount(t)
    decreases |t|
  {
    if t != [] {
      StreamLength(m, t[1..], NextPen(m, t[0], pen, startX), startX, color, shadow);
    }
  }

  /**
   * How single characters move the pen: a line break returns to the start
   * column one row lower and draws nothing; a space draws nothing but
   * moves right by its width less twice the spacing; a character without a
   * table entry draws nothing and leaves the pen where it is.
   */
  lemma CharacterEffects(m: FontMetrics, c: char, t: seq<char>, pen: Pen, startX: real, color: bv32, shadow: bool)
    requires MetricsOk(m)
    ensures c == '\n' ==>
      Stream(m, [c] + t, pen, startX, color, shadow) == Stream(m, t, Pen(startX, pen.y + RowHeight(m)), startX, color, shadow)
    ensures c == ' ' ==>
      Stream(m, [c] + t, pen, startX, color, shadow)
        == Stream(m, t, Pen(pen.x + GlyphWidth(m, ' ') - 2.0 * m.spacing as real, pen.y), startX, color, shadow)
    ensures !InTable(c) && c != '\n' ==>
      Stream(m, [c] + t, pen, startX, color, shadow) == Stream(m, t, pen, startX, color, shadow)
  {
    assert ([c] + t)[0] == c && ([c] + t)[1..] == t;
  }

  /**
   * Measure and draw agree: at texture scale 1, drawing a row moves the pen
   * right by exactly the width GetTextExtent adds up for it.
   */
  lemma {:induction false} PenMovesAsMeasured(m: FontMetrics, t: seq<char>, pen: Pen, startX: real)
    requires MetricsOk(m) && m.textScale == 1.0 && '\n' !in t
    ensures EndPen(m, t, pen, startX) == Pen(pen.x + RowSum(m, t), pen.y)
    decreases |t|
  {
    if t != [] {
      var next := NextPen(m, t[0], pen, startX);
      assert next == Pen(pen.x + Advance(m, t[0]), pen.y);
      PenMovesAsMeasured(m, t[1..], next, startX);
      RowSumFront(m, t);
    }
  }

  /** A row's width, added up from the front. */
  lemma {:induction false} RowSumFront(m: FontMetrics, t: seq<char>)
    requires TableOk(m) && t != []
    ensures RowSum(m, t) == Advance(m, t[0]) + RowSum(m, t[1..])
    decreases |t|
  {
    if |t| > 1 {
      var p := t[..|t| - 1];
      RowSumFront(m, p);
      assert p[0] == t[0] && p[1..] == t[1..][..|t[1..]| - 1];
    } else {
      assert t[1..] == [] && t[..0] == [];
    }
  }

  /** The suffix of a stream, read off one character at a time. */
  lemma StreamAdvance(m: FontMetrics, s: seq<char>, i: nat, pen: Pen, startX: real, color: bv32, shadow: bool)
    requires MetricsOk(m) && i < |s|
    ensures Stream(m, s[i..], pen, startX, color, shadow)
      == GlyphVertices(m, s[i], pen, color, shadow) + Stream(m, s[i + 1..], NextPen(m, s[i], pen, startX), startX, color, shadow)
  {
    assert s[i..][0] == s[i] && s[i..][1..] == s[i + 1..];
  }

  // ---------------------------------------------------------------------------
  // The font object
  // ---------------------------------------------------------------------------

  class Font {
    const fontHeight: nat
    /** Whether a device has been attached (pd3dDevice != NULL). */
    var hasDevice: bool
    var texWidth: nat
    var texHeight: nat
    var textScale: real
    var spacing: nat
    /** fTexCoords: one entry per character code 32 to 127. */
    const table: array<TexCoord>
    /** flHeight: the height of a line of text. */
    var lineHeight: real
    /** The device's DrawPrimitive calls so far, each with the vertices it drew. */
    var drawCalls: seq<seq<Vertex>>

    ghost predicate Valid()
      reads this
    {
      table.Length == TableSize && (hasDevice ==> texWidth > 0 && texHeight > 0 && textScale > 0.0)
    }

    function Metrics(): FontMetrics
      reads this`texWidth, this`texHeight, this`spacing, this`textScale, table
    {
      FontMetrics(table[..], texWidth, texHeight, spacing, textScale)
    }

    /** A font of the given height with no device yet; the table's contents are not yet meaningful. */
    constructor (fontHeight: nat)
      ensures Valid() && !hasDevice && this.fontHeight == fontHeight
      ensures spacing == 0 && drawCalls == [] && fresh(table)
    {
      this.fontHeight := fontHeight;
      hasDevice := false;
      texWidth := 0;
      texHeight := 0;
      textScale := 1.0;
      spacing := 0;
      lineHeight := 0.0;
      drawCalls := [];
      table := new TexCoord[TableSize](_ => TexCoord(0.0, 0.0, 0.0, 0.0));
    }

    /**
     * CD3DFont::InitDeviceObjects, its atlas-building part: choose the
     * texture size against the device's maximum texture width, derive the
     * spacing from the height of a space, pack the glyphs whose extents GDI
     * reports (`exts`, characters 32 to 126), convert the rasterized bitmap
     * `bits` into the texture, and measure the line height on "WJ".
     */
    method InitDeviceObjects(maxTextureWidth: nat, exts: seq<Extent>, bits: array2<bv32>) returns (texture: array2<bv16>)
      requires Valid() && |exts| == PackedCount && maxTextureWidth > 0
      requires bits.Length0 == ChooseTexture(fontHeight, maxTextureWidth).side
      requires bits.Length1 == ChooseTexture(fontHeight, maxTextureWidth).side
      modifies this, table
      ensures Valid() && hasDevice
      ensures var size := ChooseTexture(fontHeight, maxTextureWidth);
        texWidth == size.side && texHeight == size.side && textScale == size.scale
      ensures spacing == Spacing(exts[0].cy)
      ensures table[..PackedCount] == PackedTable(exts, spacing, texWidth, texHeight)
      ensures table[PackedCount] == old(table[PackedCount])
      ensures fresh(texture) && texture.Length0 == texHeight && texture.Length1 == texWidth
      ensures forall y, x :: 0 <= y < texture.Length0 && 0 <= x < texture.Length1 ==> texture[y, x] == Texel(bits[y, x])
      ensures lineHeight == exts[0].cy as real
      ensures drawCalls == old(drawCalls)
    {
      hasDevice := true;
      textScale := 1.0;
      var side := RequestedSide(fontHeight);
      texWidth, texHeight := side, side;
      if texWidth > maxTextureWidth {
        textScale := maxTextureWidth as real / texWidth as real;
        texWidth, texHeight := maxTextureWidth, maxTextureWidth;
      }
      spacing := Spacing(exts[0].cy);
      PackGlyphs(table, exts, spacing, texWidth, texHeight);
      texture := new bv16[texHeight, texWidth];
      WriteAlpha(bits, texture);
      var size := GetTextExtent(Metrics(), Some("WJ"), true);
      LineHeightOfPackedTable(Metrics(), exts);
      lineHeight := size.value.cy as real;
    }

    /**
     * CD3DFont::DrawString. Without a device it fails and draws nothing.
     * Otherwise the start position is centred on the measured extent when
     * asked and moved left by the spacing, and the string's characters are
     * drawn from there.
     */
    method DrawString(sx: real, sy: real, color: bv32, text: seq<char>, flags: DrawFlags) returns (status: Status)
      requires Valid()
      modifies this`drawCalls
      ensures !hasDevice ==> status == Failed && drawCalls == old(drawCalls)
      ensures hasDevice ==> (status == Ok && MetricsOk(Metrics())
        && drawCalls == old(drawCalls) + Batches(TextVertices(Metrics(), sx, sy, color, text, flags)))
    {
      if !hasDevice {
        return Failed;
      }
      var x, y := sx, sy;
      if flags.centeredX {
        var size := GetTextExtent(Metrics(), Some(text), true);
        x := x - size.value.cx as real * 0.5;
        x := Round(x) as real;
      }
      if flags.centeredY {
        var size := GetTextExtent(Metrics(), Some(text), true);
        y := y - size.value.cy as real * 0.5;
        y := Round(y) as real;
      }
      x := x - spacing as real;
      ghost var m := Metrics();
      assert Pen(x, y) == StartPen(m, sx, sy, text, flags);
      assert TextVertices(m, sx, sy, color, text, flags) == Stream(m, CStr(text), Pen(x, y), x, color, flags.dropShadow);
      DrawCharacters(Metrics(), text, x, y, color, flags.dropShadow);
      return Ok;
    }

    /**
     * The character loop of CD3DFont::DrawString, from the pen position
     * (`startX`, `startY`): each character's vertices are written into the
     * vertex buffer, which is drawn and emptied as soon as it cannot take
     * another glyph, and drawn once more at the end if anything is left in it.
     */
    method DrawCharacters(m: FontMetrics, text: seq<char>, startX: real, startY: real, color: bv32, shadow: bool)
      requires MetricsOk(m)
      modifies this`drawCalls
      ensures drawCalls == old(drawCalls) + Batches(Stream(m, CStr(text), Pen(startX, startY), startX, color, shadow))
    {
      ghost var s := CStr(text);
      ghost var all := Stream(m, s, Pen(startX, startY), startX, color, shadow);
      var x, y := startX, startY;
      var batch: seq<Vertex> := [];
      var triangles := 0;
      var i := 0;
      ghost var rest := all;
      assert s[i..] == s && batch + rest == rest;
      while i < |text| && text[i] != '\0'
        invariant 0 <= i <= |s|
        invariant rest == Stream(m, s[i..], Pen(x, y), startX, color, shadow)
        invariant |batch| == 3 * triangles && triangles < 100
        invariant if shadow then triangles % 4 == 0 else triangles % 2 == 0
        invariant old(drawCalls) + Batches(all) == drawCalls + Batches(batch + rest)
        decreases |text| - i
      {
        var c := text[i];
        ghost var before := batch;
        ghost var vs := GlyphVertices(m, c, Pen(x, y), color, shadow);
        ghost var next := NextPen(m, c, Pen(x, y), startX);
        StreamAdvance(m, s, i, Pen(x, y), startX, color, shadow);
        Regroup(batch, vs, Stream(m, s[i + 1..], next, startX, color, shadow));
        rest := Stream(m, s[i + 1..], next, startX, color, shadow);
        i := i + 1;
        if c == '\n' {
          x := startX;
          y := y + RowHeight(m);
        }
        if c as int - 32 < 0 || c as int - 32 >= 128 - 32 {
          assert Pen(x, y) == next && batch + vs == batch;
          continue;
        }
        if c != ' ' {
          BufferRoom(triangles, shadow);
          batch, triangles := WriteGlyph(m, c, x, y, color, shadow, batch, triangles);
          if triangles * 3 > MaxVertices - 6 {
            DrawFullBuffer(drawCalls, batch, rest);
            drawCalls := drawCalls + [batch];
            batch := [];
            triangles := 0;
          }
        } else {
          assert batch + vs == batch;
        }
        x := x + GlyphWidth(m, c) - 2.0 * m.spacing as real;
        assert Pen(x, y) == next;
      }
      assert i == |s| && rest == [] && batch + rest == batch;
      LastBatch(batch);
      if triangles > 0 {
        drawCalls := drawCalls + [batch];
      }
    }
  }

  /**
   * Writing one drawn character into the vertex buffer at (`x`, `y`): its
   * shadow quad first when asked for, then its glyph quad, two triangles each.
   */
  method WriteGlyph(m: FontMetrics, c: char, x: real, y: real, color: bv32, shadow: bool,
                    batch: seq<Vertex>, triangles: nat) returns (batch': seq<Vertex>, triangles': nat)
    requires MetricsOk(m) && Drawn(c)
    ensures batch' == batch + GlyphVertices(m, c, Pen(x, y), color, shadow)
    ensures triangles' == triangles + if shadow then 4 else 2
  {
    var t := Entry(m, c);
    var w := GlyphWidth(m, c);
    var h := GlyphHeight(m, c);
    batch', triangles' := batch, triangles;
    if shadow {
      batch' := batch' + Quad(x, y, w, h, ShadowColor, t, 0.5);
      triangles' := triangles' + 2;
    }
    batch' := batch' + Quad(x, y, w, h, color, t, -0.5);
    triangles' := triangles' + 2;
  }

  /**
   * The vertex buffer holds whole glyphs, so it never overflows: it is full
   * (300 vertices, 100 triangles) exactly when the flush test fires.
   */
  lemma BufferRoom(triangles: nat, shadow: bool)
    requires triangles < 100 && if shadow then triangles % 4 == 0 else triangles % 2 == 0
    ensures var t := triangles + if shadow then 4 else 2;
      t <= 100 && (t * 3 > MaxVertices - 6 <==> t == 100) && (if shadow then t % 4 == 0 else t % 2 == 0)
  {
  }

  /** Regrouping a concatenation. */
  lemma Regroup<T>(a: seq<T>, b: seq<T>, c: seq<T>)
    ensures a + (b + c) == (a + b) + c
  {
  }

  /** The line height measured on "WJ" after packing is the height of the space glyph. */
  lemma LineHeightOfPackedTable(m: FontMetrics, exts: seq<Extent>)
    requires TableOk(m) && |exts| == PackedCount && m.texWidth > 0 && m.texHeight > 0
    requires m.table[..PackedCount] == PackedTable(exts, m.spacing, m.texWidth, m.texHeight)
    ensures GetTextExtent(m, Some("WJ"), true).value.cy == exts[0].cy
  {
    PackedRowHeight(m, exts);
    OneRowHeight(m);
    assert Layout.Trunc(exts[0].cy as real) == exts[0].cy;
  }

  /** After packing, a row is as high as the space glyph's extent. */
  lemma PackedRowHeight(m: FontMetrics, exts: seq<Extent>)
    requires TableOk(m) && |exts| == PackedCount && m.texWidth > 0 && m.texHeight > 0
    requires m.table[..PackedCount] == PackedTable(exts, m.spacing, m.texWidth, m.texHeight)
    ensures RowHeight(m) == exts[0].cy as real
  {
    var slots := PackAll(exts, m.spacing, m.texWidth);
    assert m.table[0] == m.table[..PackedCount][0];
    GlyphSpan(slots[0], exts[0], m.spacing, m.texWidth, m.texHeight);
  }

  /** "WJ" has no line break, so its measured height is one row. */
  lemma OneRowHeight(m: FontMetrics)
    requires TableOk(m)
    ensures GetTextExtent(m, Some("WJ"), true).value.cy == Layout.Trunc(RowHeight(m))
  {
    var t := "WJ";
    assert CStr(t) == t;
    assert multiset(t) == multiset{'W', 'J'};
    ExtentHeight(m, t);
    assert Layout.Stride(RowHeight(m), 1) == RowHeight(m);
  }
}

=== FILE: layout.dfy ===
/**
 * Pure geometry behind the widget update pass (Antario/Menu.cpp): where a
 * section and a window place their children, and the slider's value/pixel
 * mapping and clamp.
 */
module Layout {
  import opened Cursor
  import opened Wrappers

  /** The extent of `n` consecutive rows or columns of extent `len` each. */
  function Stride(len: real, n: nat): real
  {
    len * n as real
  }

  /** With a non-positive extent, rows after the first add nothing. */
  lemma StrideFirst(len: real, n: nat)
    ensures len <= 0.0 ==> Stride(len, n + 1) <= len
  {
    assert len * (n + 1) as real == len + len * n as real;
    if len <= 0.0 {
      assert len * n as real <= 0.0;
    }
  }

  lemma StrideNext(len: real, n: nat)
    ensures Stride(len, n + 1) == Stride(len, n) + len
  {
    assert len * (n + 1) as real == len * n as real + len;
  }

  // ---------------------------------------------------------------------------
  // Section layout (BaseSection::SetupPositions)
  // ---------------------------------------------------------------------------

  /** What a section's layout depends on: its rectangle, column count and the style paddings. */
  datatype SectionGeom = SectionGeom(origin: Vec2, size: Vec2, numRows: int, padX: real, padY: real)

  predicate SectionOk(g: SectionGeom) { g.numRows >= 1 }

  /** Width by which the drawing cursor shifts when a column is full. */
  function ColumnWidth(g: SectionGeom): real
    requires SectionOk(g)
  {
    g.size.x / g.numRows as real
  }

  /** The bottom edge children must not cross. */
  function SectionBottom(g: SectionGeom): real { g.origin.y + g.size.y }

  /**
   * The positions SetupPositions gives to the children with heights `hs`, from
   * a state with `used` pixels of the current column used, a column shift of
   * `shift` and `leftRows` unused columns. A child that does not fit moves the
   * drawing cursor to the next column and is tried again; when no column is
   * left, placement stops and the result is shorter than `hs`.
   */
  function SectionPlace(g: SectionGeom, hs: seq<real>, used: real, shift: real, leftRows: int): (ps: seq<Vec2>)
    requires SectionOk(g)
    ensures |ps| <= |hs|
    decreases |hs|, leftRows
  {
    if hs == [] then []
    else
      var px := g.origin.x + g.padX + shift;
      var py := g.origin.y + used + g.padY;
      if py + hs[0] > SectionBottom(g) then
        if leftRows > 0 then SectionPlace(g, hs, 0.0, shift + ColumnWidth(g), leftRows - 1)
        else []
      else [Vec2(px, py)] + SectionPlace(g, hs[1..], used + hs[0] + g.padY, shift, leftRows)
  }

  /** The layout of a whole section, from its first column. */
  function SectionLayout(g: SectionGeom, hs: seq<real>): seq<Vec2>
    requires SectionOk(g)
  {
    SectionPlace(g, hs, 0.0, 0.0, g.numRows - 1)
  }

  /** The layout of the children from `it` on, from the given state, is the rest of `all`. */
  predicate SectionPlacedFrom(g: SectionGeom, hs: seq<real>, it: nat, used: real, shift: real, leftRows: int, all: seq<Vec2>)
    requires SectionOk(g)
  {
    it <= |hs| && it <= |all| && SectionPlace(g, hs[it..], used, shift, leftRows) == all[it..]
  }

  /** One step of SetupPositions' loop that places child `it`: the next position of the layout is its own. */
  lemma SectionPlaceAdvance(g: SectionGeom, hs: seq<real>, it: nat, used: real, shift: real, leftRows: int, all: seq<Vec2>)
    requires SectionOk(g) && it < |hs| && SectionPlacedFrom(g, hs, it, used, shift, leftRows, all)
    requires g.origin.y + used + g.padY + hs[it] <= SectionBottom(g)
    ensures it < |all| && all[it] == Vec2(g.origin.x + g.padX + shift, g.origin.y + used + g.padY)
    ensures SectionPlacedFrom(g, hs, it + 1, used + hs[it] + g.padY, shift, leftRows, all)
  {
    var rest := SectionPlace(g, hs[it + 1..], used + hs[it] + g.padY, shift, leftRows);
    var p := Vec2(g.origin.x + g.padX + shift, g.origin.y + used + g.padY);
    assert hs[it..][0] == hs[it] && hs[it..][1..] == hs[it + 1..];
    assert all[it..] == [p] + rest;
    assert all[it..][0] == all[it] && all[it..][1..] == all[it + 1..];
  }

  /** One step of SetupPositions' loop that moves to the next column: the layout still to come is unchanged. */
  lemma SectionPlaceWrap(g: SectionGeom, hs: seq<real>, it: nat, used: real, shift: real, leftRows: int, all: seq<Vec2>)
    requires SectionOk(g) && it < |hs| && SectionPlacedFrom(g, hs, it, used, shift, leftRows, all)
    requires g.origin.y + used + g.padY + hs[it] > SectionBottom(g)
    ensures leftRows > 0 ==> SectionPlacedFrom(g, hs, it, 0.0, shift + ColumnWidth(g), leftRows - 1, all)
    ensures leftRows <= 0 ==> |all| == it
  {
    assert hs[it..][0] == hs[it];
  }

  /** Every child that is placed ends at or above the section's bottom edge. */
  lemma {:induction false} SectionPlaceFits(g: SectionGeom, hs: seq<real>, used: real, shift: real, leftRows: int)
    requires SectionOk(g)
    ensures var ps := SectionPlace(g, hs, used, shift, leftRows);
      forall i :: 0 <= i < |ps| ==> ps[i].y + hs[i] <= SectionBottom(g)
    decreases |hs|, leftRows
  {
    if hs != [] {
      var py := g.origin.y + used + g.padY;
      if py + hs[0] > SectionBottom(g) {
        if leftRows > 0 {
          SectionPlaceFits(g, hs, 0.0, shift + ColumnWidth(g), leftRows - 1);
        }
      } else {
        SectionPlaceFits(g, hs[1..], used + hs[0] + g.padY, shift, leftRows);
      }
    }
  }

  /** The x positions of the columns 0 .. last, counted from the drawing cursor's start `shift`. */
  function ColumnXs(g: SectionGeom, shift: real, last: nat): (xs: seq<real>)
    requires SectionOk(g)
    ensures |xs| == last + 1
  {
    seq(last + 1, k requires 0 <= k <= last => g.origin.x + g.padX + shift + Stride(ColumnWidth(g), k))
  }

  /** Every position of `ps` starts at one of the column offsets `xs`. */
  predicate InColumns(ps: seq<Vec2>, xs: seq<real>)
  {
    forall i :: 0 <= i < |ps| ==> ps[i].x in xs
  }

  /**
   * The column shift only grows by one column width per exhausted column, and
   * at most `leftRows` times: every placed child sits 0 .. leftRows columns
   * right of the starting shift.
   */

  lemma {:induction false} SectionPlaceColumns(g: SectionGeom, hs: seq<real>, used: real, shift: real, leftRows: nat)
    requires SectionOk(g)
    ensures InColumns(SectionPlace(g, hs, used, shift, leftRows), ColumnXs(g, shift, leftRows))
    decreases |hs|, leftRows
  {
    var ps := SectionPlace(g, hs, used, shift, leftRows);
    var xs := ColumnXs(g, shift, leftRows);
    if hs != [] {
      var py := g.origin.y + used + g.padY;
      if py + hs[0] > SectionBottom(g) {
        if leftRows > 0 {
          var shift' := shift + ColumnWidth(g);
          var xs' := ColumnXs(g, shift', leftRows - 1);
          SectionPlaceColumns(g, hs, 0.0, shift', leftRows - 1);
          assert ps == SectionPlace(g, hs, 0.0, shift', leftRows - 1);
          forall i | 0 <= i < |ps| ensures ps[i].x in xs {
            var k :| 0 <= k < |xs'| && xs'[k] == ps[i].x;
            StrideNext(ColumnWidth(g), k);
            assert xs[k + 1] == ps[i].x;
          }
        }
      } else {
        var rest := SectionPlace(g, hs[1..], used + hs[0] + g.padY, shift, leftRows);
        SectionPlaceColumns(g, hs[1..], used + hs[0] + g.padY, shift, leftRows);
        assert ps == [Vec2(g.origin.x + g.padX + shift, py)] + rest;
        assert xs[0] == ps[0].x;
        forall i | 0 < i < |ps| ensures ps[i].x in xs {
          assert ps[i] == rest[i - 1];
          assert rest[i - 1].x in xs;
        }
      }
    }
  }

  /**
   * A section never uses more than its `numRows` columns: every placed child
   * starts in one of the columns 0 .. numRows - 1.
   */
  lemma SectionLayoutColumns(g: SectionGeom, hs: seq<real>)
    requires SectionOk(g)
    ensures InColumns(SectionLayout(g, hs), ColumnXs(g, 0.0, g.numRows - 1))
  {
    assert SectionLayout(g, hs) == SectionPlace(g, hs, 0.0, 0.0, g.numRows - 1);
    SectionPlaceColumns(g, hs, 0.0, 0.0, g.numRows - 1);
  }

  /**
   * Within one column, each placed child starts exactly one padding below the
   * previous one; a child in a fresh column starts one padding below the
   * section's top.
   */
  lemma {:induction false} SectionPlaceStacks(g: SectionGeom, hs: seq<real>, used: real, shift: real, leftRows: int)
    requires SectionOk(g)
    ensures var ps := SectionPlace(g, hs, used, shift, leftRows);
      && (|ps| > 0 ==> ps[0].y == g.origin.y + used + g.padY || ps[0].y == g.origin.y + g.padY)
      && forall i :: 0 < i < |ps| ==>
           ps[i].y == ps[i - 1].y + hs[i - 1] + g.padY || ps[i].y == g.origin.y + g.padY
    decreases |hs|, leftRows
  {
    if hs != [] {
      var py := g.origin.y + used + g.padY;
      if py + hs[0] > SectionBottom(g) {
        if leftRows > 0 {
          SectionPlaceStacks(g, hs, 0.0, shift + ColumnWidth(g), leftRows - 1);
        }
      } else {
        var ps := SectionPlace(g, hs, used, shift, leftRows);
        var used' := used + hs[0] + g.padY;
        var rest := SectionPlace(g, hs[1..], used', shift, leftRows);
        SectionPlaceStacks(g, hs[1..], used', shift, leftRows);
        assert ps == [Vec2(g.origin.x + g.padX + shift, py)] + rest;
        forall i | 0 < i < |ps|
          ensures ps[i].y == ps[i - 1].y + hs[i - 1] + g.padY || ps[i].y == g.origin.y + g.padY
        {
          assert ps[i] == rest[i - 1];
          if i == 1 {
            assert ps[0].y == py;
            assert g.origin.y + used' + g.padY == py + hs[0] + g.padY;
          } else {
            assert ps[i - 1] == rest[i - 2];
            assert hs[i - 1] == hs[1..][i - 2];
          }
        }
      }
    }
  }

  // ---------------------------------------------------------------------------
  // Window layout (the setChildPos lambda of BaseWindow::UpdateData)
  // ---------------------------------------------------------------------------

  /** What a window's child layout depends on. */
  datatype WindowGeom = WindowGeom(origin: Vec2, size: Vec2, header: real, padX: real, padY: real)

  /** The running state of setChildPos: column x, used height of the column, widest child so far. */
  datatype WindowPen = WindowPen(posX: real, used: real, biggest: real)

  function WindowStart(g: WindowGeom): WindowPen
  {
    WindowPen(g.origin.x + g.padX, g.header, 0.0)
  }

  /**
   * The window layout as the source writes it: on wrap-around to a new column
   * the child is moved to just below the header but the used height is reset
   * to 0, so the header is no longer counted for the following children of
   * that column.
   */
  function WindowPlaceAsWritten(g: WindowGeom, sizes: seq<Vec2>, pen: WindowPen): (ps: seq<Vec2>)
    ensures |ps| == |sizes|
    decreases |sizes|
  {
    if sizes == [] then []
    else
      var s := sizes[0];
      var py := g.origin.y + pen.used + g.padY;
      var wrap := py + s.y > g.origin.y + g.size.y;
      var posY := if wrap then py - pen.used + g.header else py;
      var used := if wrap then 0.0 else pen.used;
      var posX := if wrap then pen.posX + pen.biggest + g.padX else pen.posX;
      var biggest := if s.x > pen.biggest then s.x else pen.biggest;
      [Vec2(posX, posY)] + WindowPlaceAsWritten(g, sizes[1..], WindowPen(posX, used + s.y + g.padY, biggest))
  }

  /** Whether a child of size `s` no longer fits below the used part of the current column. */
  predicate WindowWraps(g: WindowGeom, s: Vec2, pen: WindowPen)
  {
    g.origin.y + pen.used + g.padY + s.y > g.origin.y + g.size.y
  }

  /**
   * Where the pen state `pen` puts a child of size `s`: below the used part
   * of the current column, or, when it does not fit, just below the header
   * of the next column, which starts one padding right of the widest child so far.
   */
  function WindowPlaceOne(g: WindowGeom, s: Vec2, pen: WindowPen): Vec2
  {
    var used := if WindowWraps(g, s, pen) then g.header else pen.used;
    var posX := if WindowWraps(g, s, pen) then pen.posX + pen.biggest + g.padX else pen.posX;
    Vec2(posX, g.origin.y + used + g.padY)
  }

  /**
   * The pen state after placing a child of size `s`; a wrapped column keeps
   * counting the header in its used height, like the first column does.
   */
  function WindowAdvance(g: WindowGeom, s: Vec2, pen: WindowPen): WindowPen
  {
    var used := if WindowWraps(g, s, pen) then g.header else pen.used;
    var biggest := if s.x > pen.biggest then s.x else pen.biggest;
    WindowPen(WindowPlaceOne(g, s, pen).x, used + s.y + g.padY, biggest)
  }

  /** The window layout with the evident intent: the children placed one after another from pen state `pen`. */
  function WindowPlace(g: WindowGeom, sizes: seq<Vec2>, pen: WindowPen): (ps: seq<Vec2>)
    ensures |ps| == |sizes|
    decreases |sizes|
  {
    if sizes == [] then []
    else [WindowPlaceOne(g, sizes[0], pen)] + WindowPlace(g, sizes[1..], WindowAdvance(g, sizes[0], pen))
  }

  /** One iteration of setChildPos: the next position of the layout is the one this pen state gives child `i`. */
  lemma WindowPlaceAdvance(g: WindowGeom, sizes: seq<Vec2>, i: nat, pen: WindowPen, all: seq<Vec2>)
    requires i < |sizes| && i <= |all|
    requires WindowPlace(g, sizes[i..], pen) == all[i..]
    ensures i < |all| && all[i] == WindowPlaceOne(g, sizes[i], pen)
    ensures WindowPlace(g, sizes[i + 1..], WindowAdvance(g, sizes[i], pen)) == all[i + 1..]
  {
    var p := WindowPlaceOne(g, sizes[i], pen);
    var rest := WindowPlace(g, sizes[i + 1..], WindowAdvance(g, sizes[i], pen));
    assert sizes[i..][0] == sizes[i] && sizes[i..][1..] == sizes[i + 1..];
    assert all[i..] == [p] + rest;
    assert all[i..][0] == all[i] && all[i..][1..] == all[i + 1..];
  }

  /** The top of the content area: one padding below the header. */
  function ContentTop(g: WindowGeom): real { g.origin.y + g.header + g.padY }

  /** Pen states from which every child lands at or below the content top. */
  predicate PenOk(g: WindowGeom, pen: WindowPen)
  {
    pen.used >= g.header && pen.biggest >= 0.0
  }

  /** A window with non-negative paddings. */
  predicate PaddingOk(g: WindowGeom)
  {
    g.padX >= 0.0 && g.padY >= 0.0
  }

  /** Every size of `sizes` is non-negative. */
  predicate SizesOk(sizes: seq<Vec2>)
  {
    forall i :: 0 <= i < |sizes| ==> sizes[i].x >= 0.0 && sizes[i].y >= 0.0
  }

  /**
   * One placement: the child goes below the used part of the current column
   * or to the content top of the next column, and the next pen state
   * continues one padding below the child, in the child's column, with a
   * widest-child width that covers the child.
   */
  lemma WindowStep(g: WindowGeom, s: Vec2, pen: WindowPen)
    requires PenOk(g, pen) && PaddingOk(g) && s.x >= 0.0 && s.y >= 0.0
    ensures var p := WindowPlaceOne(g, s, pen);
      var pen' := WindowAdvance(g, s, pen);
      && ((p.x == pen.posX && p.y == g.origin.y + pen.used + g.padY)
          || (p.x == pen.posX + pen.biggest + g.padX && p.y == ContentTop(g)))
      && p.y >= ContentTop(g) && p.x >= pen.posX
      && PenOk(g, pen') && pen'.posX == p.x && pen'.biggest >= s.x
      && g.origin.y + pen'.used + g.padY == p.y + s.y + g.padY
  {
  }

  /**
   * Children never cover each other or the header: each child starts either
   * one padding below its predecessor in the same column, or at the top of
   * the content area of a new column to the right; so with non-negative
   * sizes and paddings every child starts at or below the content top.
   */
  lemma {:induction false} WindowPlaceStacks(g: WindowGeom, sizes: seq<Vec2>, pen: WindowPen)
    requires PenOk(g, pen) && PaddingOk(g) && SizesOk(sizes)
    ensures var ps := WindowPlace(g, sizes, pen);
      && (|ps| > 0 ==>
            (ps[0].x == pen.posX && ps[0].y == g.origin.y + pen.used + g.padY)
            || (ps[0].x == pen.posX + pen.biggest + g.padX && ps[0].y == ContentTop(g)))
      && (forall i :: 0 <= i < |ps| ==> ps[i].y >= ContentTop(g) && ps[i].x >= pen.posX)
      && (forall i :: 0 < i < |ps| ==>
            (ps[i].x == ps[i - 1].x && ps[i].y == ps[i - 1].y + sizes[i - 1].y + g.padY)
            || (ps[i].x >= ps[i - 1].x + sizes[i - 1].x + g.padX && ps[i].y == ContentTop(g)))
    decreases |sizes|
  {
    if sizes != [] {
      var ps := WindowPlace(g, sizes, pen);
      var p := WindowPlaceOne(g, sizes[0], pen);
      var pen' := WindowAdvance(g, sizes[0], pen);
      var rest := WindowPlace(g, sizes[1..], pen');
      WindowStep(g, sizes[0], pen);
      assert SizesOk(sizes[1..]) by {
        forall i | 0 <= i < |sizes[1..]| ensures sizes[1..][i].x >= 0.0 && sizes[1..][i].y >= 0.0 {
          assert sizes[1..][i] == sizes[i + 1];
        }
      }
      WindowPlaceStacks(g, sizes[1..], pen');
      assert ps == [p] + rest;
      forall i | 0 <= i < |ps| ensures ps[i].y >= ContentTop(g) && ps[i].x >= pen.posX {
        if i > 0 {
          assert ps[i] == rest[i - 1];
        }
      }
      forall i | 0 < i < |ps|
        ensures (ps[i].x == ps[i - 1].x && ps[i].y == ps[i - 1].y + sizes[i - 1].y + g.padY)
             || (ps[i].x >= ps[i - 1].x + sizes[i - 1].x + g.padX && ps[i].y == ContentTop(g))
      {
        assert ps[i] == rest[i - 1];
        if i > 1 {
          assert ps[i - 1] == rest[i - 2];
          assert sizes[i - 1] == sizes[1..][i - 2];
        }
      }
    }
  }

  /**
   * The source's wrap-around places the second child of a wrapped column
   * over the first: here the first column takes one 80-pixel child, the next
   * child wraps to y = 20, and the third is put at y = 22 although the second
   * spans y = 20 .. 30.
   */
  lemma WrappedColumnOverlaps()
    ensures var g := WindowGeom(Vec2(0.0, 0.0), Vec2(200.0, 100.0), 14.0, 10.0, 6.0);
      var sizes := [Vec2(50.0, 80.0), Vec2(50.0, 10.0), Vec2(50.0, 10.0)];
      var ps := WindowPlaceAsWritten(g, sizes, WindowStart(g));
      && ps[1] == Vec2(70.0, 20.0)
      && ps[2] == Vec2(70.0, 22.0)
      && ps[2].y < ps[1].y + sizes[1].y
  {
    var g := WindowGeom(Vec2(0.0, 0.0), Vec2(200.0, 100.0), 14.0, 10.0, 6.0);
    var sizes := [Vec2(50.0, 80.0), Vec2(50.0, 10.0), Vec2(50.0, 10.0)];
    var p0 := WindowStart(g);
    var p1 := WindowPen(10.0, 100.0, 50.0);
    var p2 := WindowPen(70.0, 16.0, 50.0);
    assert WindowPlaceAsWritten(g, sizes, p0) == [Vec2(10.0, 20.0)] + WindowPlaceAsWritten(g, sizes[1..], p1);
    assert WindowPlaceAsWritten(g, sizes[1..], p1) == [Vec2(70.0, 20.0)] + WindowPlaceAsWritten(g, sizes[2..], p2);
    assert WindowPlaceAsWritten(g, sizes[2..], p2)[0] == Vec2(70.0, 22.0);
  }

  // ---------------------------------------------------------------------------
  // Slider arithmetic (Slider<T>::GetValuePerPixel, SetValue, the marker position)
  // ---------------------------------------------------------------------------

  /** C++ static_cast<int> of a float: truncation toward zero. */
  function Trunc(r: real): (n: int)
    ensures n as real <= r < n as real + 1.0 || n as real - 1.0 < r <= n as real
    ensures r >= 0.0 ==> n >= 0
    ensures -1.0 < r - n as real < 1.0
  {
    if r >= 0.0 then r.Floor else -((-r).Floor)
  }

  /** SetValue's clamp: max with the minimum first, then min with the maximum. */
  function Clamp(v: real, lo: real, hi: real): (r: real)
    ensures lo <= hi ==> lo <= r <= hi
    ensures lo <= v <= hi ==> r == v
    ensures v < lo <= hi ==> r == lo
    ensures lo <= hi < v ==> r == hi
  {
    var v1 := if v > lo then v else lo;
    if v1 < hi then v1 else hi
  }

  /** GetValuePerPixel: value range over track width. */
  function ValuePerPixel(lo: real, hi: real, width: real): real
    requires width != 0.0
  {
    (hi - lo) / width
  }

  /** The value change for a pointer movement of `px` pixels at `vpp` value per pixel. */
  function PixelsToValue(px: real, vpp: real): real
  {
    px * vpp
  }

  /** The x of the slider's marker for value `v` on a track starting at `trackX`: the inverse of ValuePerPixel. */
  function MarkerX(trackX: real, v: real, lo: real, hi: real, width: real): real
    requires lo != hi
  {
    trackX + (v - lo) * width / (hi - lo)
  }

  /** Moving the pointer by `d` pixels moves the value by `d` value-per-pixel: MarkerX and ValuePerPixel are inverse. */
  lemma MarkerRoundTrip(trackX: real, v: real, lo: real, hi: real, width: real)
    requires lo < hi && width > 0.0
    ensures (MarkerX(trackX, v, lo, hi, width) - trackX) * ValuePerPixel(lo, hi, width) == v - lo
  {
    var m := (v - lo) * width / (hi - lo);
    assert m * (hi - lo) == (v - lo) * width;
    calc {
      m * ((hi - lo) / width);
      (m * (hi - lo)) / width;
      ((v - lo) * width) / width;
      v - lo;
    }
  }

  /**
   * The value a pressed float slider writes: the current value moved by the
   * pointer's distance from the marker, clamped. Because the marker is the
   * image of the current value, this is the value under the anchor x.
   */
  function DragValue(v: real, anchorX: real, trackX: real, lo: real, hi: real, width: real): real
    requires lo != hi && width != 0.0
  {
    Clamp(PixelsToValue(anchorX - MarkerX(trackX, v, lo, hi, width), ValuePerPixel(lo, hi, width)) + v, lo, hi)
  }

  /** A float slider's drag sets the value under the anchor, whatever the value was. */
  lemma DragSetsValueUnderAnchor(v: real, anchorX: real, trackX: real, lo: real, hi: real, width: real)
    requires lo < hi && width > 0.0
    ensures DragValue(v, anchorX, trackX, lo, hi, width) == Clamp(lo + (anchorX - trackX) * ValuePerPixel(lo, hi, width), lo, hi)
  {
    var vpp := ValuePerPixel(lo, hi, width);
    var m := MarkerX(trackX, v, lo, hi, width);
    MarkerRoundTrip(trackX, v, lo, hi, width);
    calc {
      (anchorX - m) * vpp + v;
      (anchorX - trackX) * vpp - (m - trackX) * vpp + v;
      (anchorX - trackX) * vpp - (v - lo) + v;
      lo + (anchorX - trackX) * vpp;
    }
  }

  // ---------------------------------------------------------------------------
  // Combo box geometry (ComboBox::UpdateData)
  // ---------------------------------------------------------------------------

  /** The list zone below an open combo's selector: one selector height per option. */
  function ListHit(p: Vec2, selPos: Vec2, selSize: Vec2, count: nat): bool
  {
    InBounds(p, Vec2(selPos.x, selPos.y + selSize.y), Vec2(selPos.x + selSize.x, selPos.y + Stride(selSize.y, count + 1)))
  }

  /** Option row `k`: one selector height tall, extended by one pixel at the bottom. */
  function RowHit(p: Vec2, selPos: Vec2, selSize: Vec2, k: nat): bool
  {
    var top := Vec2(selPos.x, selPos.y + Stride(selSize.y, k + 1));
    InBounds(p, top, Vec2(top.x + selSize.x, top.y + selSize.y + 1.0))
  }

  /** The first option row, from `from` on, that contains the pointer. */
  function FirstRowHit(p: Vec2, selPos: Vec2, selSize: Vec2, from: nat, count: nat): (r: Option<nat>)
    ensures r.Some? ==> from <= r.value < count && RowHit(p, selPos, selSize, r.value)
    ensures r.Some? ==> forall j :: from <= j < r.value ==> !RowHit(p, selPos, selSize, j)
    ensures r.None? ==> forall j :: from <= j < count ==> !RowHit(p, selPos, selSize, j)
    decreases count - from
  {
    if from >= count then None
    else if RowHit(p, selPos, selSize, from) then Some(from)
    else FirstRowHit(p, selPos, selSize, from + 1, count)
  }

  /** The last option row below `upTo` that contains the pointer. */
  function LastRowHit(p: Vec2, selPos: Vec2, selSize: Vec2, upTo: nat): (r: Option<nat>)
    ensures r.Some? ==> r.value < upTo && RowHit(p, selPos, selSize, r.value)
    ensures r.Some? ==> forall j :: r.value < j < upTo ==> !RowHit(p, selPos, selSize, j)
    ensures r.None? ==> forall j :: 0 <= j < upTo ==> !RowHit(p, selPos, selSize, j)
  {
    if upTo == 0 then None
    else if RowHit(p, selPos, selSize, upTo - 1) then Some(upTo - 1)
    else LastRowHit(p, selPos, selSize, upTo - 1)
  }

  /**
   * A pointer in the list zone lies in some option row. The zone is empty
   * when there are no options or the row height is not positive.
   */
  lemma {:induction false} ListZoneCoveredByRows(p: Vec2, selPos: Vec2, selSize: Vec2, count: nat)
    requires ListHit(p, selPos, selSize, count)
    ensures count > 0 && selSize.y > 0.0
    ensures FirstRowHit(p, selPos, selSize, 0, count).Some?
  {
    var h := selSize.y;
    StrideFirst(h, count);
    var k := 0;
    while k < count && p.y >= selPos.y + Stride(h, k + 1) + h + 1.0
      invariant 0 <= k <= count
      invariant p.y > selPos.y + Stride(h, k + 1)
      decreases count - k
    {
      StrideNext(h, k + 1);
      k := k + 1;
    }
    assert k < count;
    assert RowHit(p, selPos, selSize, k);
  }
}

=== FILE: textmetrics.dfy ===
/**
 * Text measurement with the font atlas: CD3DFont::GetTextExtent
 * (Antario/Utils/D3DFont.cpp), a left fold over the characters of a string
 * that tracks the width of the current row, the widest row so far and the
 * total height.
 */
module TextMetrics {
  import opened Wrappers
  import opened Atlas
  import Layout

  /** What measuring and drawing read of a font: its coordinate table, texture size, glyph spacing and scale. */
  datatype FontMetrics = FontMetrics(table: seq<TexCoord>, texWidth: nat, texHeight: nat, spacing: nat, textScale: real)

  /** The table has one entry per character code 32 to 127. */
  predicate TableOk(m: FontMetrics) { |m.table| == TableSize }

  /** Characters that have a table entry; all others are skipped when measuring and drawing. */
  predicate InTable(c: char) { 32 <= c as int < 128 }

  function Entry(m: FontMetrics, c: char): TexCoord
    requires TableOk(m) && InTable(c)
  {
    m.table[c as int - 32]
  }

  /** The height of one text row: the pixel height of the space glyph. */
  function RowHeight(m: FontMetrics): real
    requires TableOk(m)
  {
    (m.table[0].v2 - m.table[0].v1) * m.texHeight as real
  }

  /** What a character adds to its row's width: its glyph's pixel width less the spacing on both sides. */
  function Advance(m: FontMetrics, c: char): real
    requires TableOk(m)
  {
    if InTable(c) then
      var t := Entry(m, c);
      (t.u2 - t.u1) * m.texWidth as real - 2.0 * m.spacing as real
    else 0.0
  }

  /** The characters of a C string: everything before the first NUL. */
  function CStr(s: seq<char>): (r: seq<char>)
    ensures |r| <= |s| && r == s[..|r|]
    ensures forall i :: 0 <= i < |r| ==> r[i] != '\0'
    ensures |r| < |s| ==> s[|r|] == '\0'
    decreases |s|
  {
    if s == [] || s[0] == '\0' then [] else [s[0]] + CStr(s[1..])
  }

  /** The running state of the fold: current row width, widest row width so far, total height. */
  datatype Measure = Measure(rowWidth: real, width: real, height: real)

  /** One iteration of GetTextExtent's loop. */
  function MeasureStep(m: FontMetrics, acc: Measure, c: char): Measure
    requires TableOk(m)
  {
    var a := if c == '\n' then Measure(0.0, acc.width, acc.height + RowHeight(m)) else acc;
    if !InTable(c) then a
    else
      var rw := a.rowWidth + Advance(m, c);
      Measure(rw, if rw > a.width then rw else a.width, a.height)
  }

  /** The fold over `t`, from the initial state: no width, one row. */
  function Scan(m: FontMetrics, t: seq<char>): (r: Measure)
    requires TableOk(m)
    ensures r.width >= 0.0
    decreases |t|
  {
    if t == [] then Measure(0.0, 0.0, RowHeight(m))
    else MeasureStep(m, Scan(m, t[..|t| - 1]), t[|t| - 1])
  }

  /** A text extent in whole pixels. */
  datatype Size = Size(cx: int, cy: int)

  /**
   * CD3DFont::GetTextExtent. `text` is None for a null string pointer and
   * `sizeOut` is false for a null result pointer; either fails (E_FAIL)
   * without a result. Otherwise the float extent is truncated to int.
   */
  function GetTextExtent(m: FontMetrics, text: Option<seq<char>>, sizeOut: bool): (r: Option<Size>)
    requires TableOk(m)
    ensures r.None? <==> text.None? || !sizeOut
    ensures r.Some? ==> r.value.cx >= 0
  {
    if text.None? || !sizeOut then None
    else
      var s := Scan(m, CStr(text.value));
      Some(Size(Layout.Trunc(s.width), Layout.Trunc(s.height)))
  }

  // ---------------------------------------------------------------------------
  // The extent by rows
  // ---------------------------------------------------------------------------

  /** The number of line breaks in `t`. */
  function Newlines(t: seq<char>): nat { multiset(t)['\n'] }

  /** The row `t` ends in: the characters after its last line break. */
  function LastRow(t: seq<char>): (r: seq<char>)
    ensures |r| <= |t| && r == t[|t| - |r|..]
    ensures '\n' !in r
    decreases |t|
  {
    if t == [] then []
    else if t[|t| - 1] == '\n' then []
    else LastRow(t[..|t| - 1]) + [t[|t| - 1]]
  }

  /** The width of a row: the sum of its characters' advances. */
  function RowSum(m: FontMetrics, r: seq<char>): real
    requires TableOk(m)
    decreases |r|
  {
    if r == [] then 0.0 else RowSum(m, r[..|r| - 1]) + Advance(m, r[|r| - 1])
  }

  /** The height is one row height per row: one more than the number of line breaks. */
  lemma {:induction false} ExtentHeight(m: FontMetrics, t: seq<char>)
    requires TableOk(m)
    ensures Scan(m, t).height == Layout.Stride(RowHeight(m), 1 + Newlines(t))
    decreases |t|
  {
    if t == [] {
      assert Layout.Stride(RowHeight(m), 1) == RowHeight(m);
    } else {
      var p := t[..|t| - 1];
      var c := t[|t| - 1];
      assert t == p + [c];
      assert multiset(t) == multiset(p) + multiset{c};
      ExtentHeight(m, p);
      if c == '\n' {
        Layout.StrideNext(RowHeight(m), 1 + Newlines(p));
      }
    }
  }

  /** The running row width is the width of the row the text ends in. */
  lemma {:induction false} RowWidthIsLastRow(m: FontMetrics, t: seq<char>)
    requires TableOk(m)
    ensures Scan(m, t).rowWidth == RowSum(m, LastRow(t))
    decreases |t|
  {
    if t != [] {
      var p := t[..|t| - 1];
      RowWidthIsLastRow(m, p);
      var c := t[|t| - 1];
      if c != '\n' {
        var r := LastRow(p) + [c];
        assert r[..|r| - 1] == LastRow(p);
      }
    }
  }

  /** Measuring one more character never narrows the text. */
  lemma WidthGrows(m: FontMetrics, t: seq<char>)
    requires TableOk(m) && t != []
    ensures Scan(m, t[..|t| - 1]).width <= Scan(m, t).width
  {
  }

  /** No row, at any point of the text, is wider than the measured width. */
  lemma {:induction false} WidthBoundsRows(m: FontMetrics, t: seq<char>)
    requires TableOk(m)
    ensures forall i :: 0 <= i <= |t| ==> RowSum(m, LastRow(t[..i])) <= Scan(m, t).width
    decreases |t|
  {
    if t == [] {
      assert t[..0] == [];
    } else {
      var p := t[..|t| - 1];
      var c := t[|t| - 1];
      WidthBoundsRows(m, p);
      WidthGrows(m, t);
      var w := Scan(m, t).width;
      forall i | 0 <= i <= |t|
        ensures RowSum(m, LastRow(t[..i])) <= w
      {
        if i < |t| {
          assert t[..i] == p[..i];
        } else {
          assert t[..i] == t;
          RowWidthIsLastRow(m, t);
          if c != '\n' && !InTable(c) {
            RowWidthIsLastRow(m, p);
            assert p[..|p|] == p;
          }
        }
      }
    }
  }

  /** Unless it is 0, the measured width is the width some row reached at some point of the text. */
  lemma {:induction false} WidthIsReached(m: FontMetrics, t: seq<char>)
    requires TableOk(m)
    ensures Scan(m, t).width == 0.0 || exists i :: 0 < i <= |t| && Scan(m, t).width == RowSum(m, LastRow(t[..i]))
    decreases |t|
  {
    if t != [] {
      var p := t[..|t| - 1];
      var c := t[|t| - 1];
      var w := Scan(m, t).width;
      assert Scan(m, t) == MeasureStep(m, Scan(m, p), c);
      if w != Scan(m, p).width {
        assert w == Scan(m, t).rowWidth;
        RowWidthIsLastRow(m, t);
        assert t[..|t|] == t;
        assert w == RowSum(m, LastRow(t[..|t|]));
      } else if w != 0.0 {
        WidthIsReached(m, p);
        var i :| 0 < i <= |p| && Scan(m, p).width == RowSum(m, LastRow(p[..i]));
        assert t[..i] == p[..i];
        assert w == RowSum(m, LastRow(t[..i]));
      }
    }
  }

  /** A row boundary: the end of the text or a line break. */
  predicate RowEnd(t: seq<char>, i: int) { i == |t| || (0 <= i < |t| && t[i] == '\n') }

  /** No character of `t` narrows a row; PackedAdvancesNonNegative shows this of a packed table for text without DEL. */
  predicate NonNegativeAdvances(m: FontMetrics, t: seq<char>)
    requires TableOk(m)
  {
    forall i :: 0 <= i < |t| ==> Advance(m, t[i]) >= 0.0
  }

  /**
   * When no character narrows a row, the width is that of the widest
   * complete row: some row, taken up to its line break or the end of the
   * text, has exactly that width, and no complete row is wider.
   */
  lemma WidthIsWidestRow(m: FontMetrics, t: seq<char>)
    requires TableOk(m) && NonNegativeAdvances(m, t)
    ensures forall i :: 0 <= i <= |t| && RowEnd(t, i) ==> RowSum(m, LastRow(t[..i])) <= Scan(m, t).width
    ensures exists i :: 0 <= i <= |t| && RowEnd(t, i) && Scan(m, t).width == RowSum(m, LastRow(t[..i]))
  {
    WidthBoundsRows(m, t);
    WidthIsReached(m, t);
    var w := Scan(m, t).width;
    if w == 0.0 {
      LastRowNonNegative(m, t);
      assert t[..|t|] == t;
      assert RowEnd(t, |t|) && w == RowSum(m, LastRow(t[..|t|]));
    } else {
      var i :| 0 < i <= |t| && w == RowSum(m, LastRow(t[..i]));
      var j := ReachRowEnd(m, t, i);
    }
  }

  /** The current row is a suffix of the text, so it does not narrow either. */
  lemma LastRowNonNegative(m: FontMetrics, t: seq<char>)
    requires TableOk(m) && NonNegativeAdvances(m, t)
    ensures RowSum(m, LastRow(t)) >= 0.0
  {
    var last := LastRow(t);
    assert forall k :: 0 <= k < |last| ==> last[k] == t[|t| - |last| + k];
    RowSumNonNegative(m, last);
  }

  lemma {:induction false} RowSumNonNegative(m: FontMetrics, r: seq<char>)
    requires TableOk(m) && NonNegativeAdvances(m, r)
    ensures RowSum(m, r) >= 0.0
    decreases |r|
  {
    if r != [] {
      assert forall i :: 0 <= i < |r| - 1 ==> r[..|r| - 1][i] == r[i];
      RowSumNonNegative(m, r[..|r| - 1]);
    }
  }

  /** Running on from position i to the next row boundary j never narrows the row. */
  lemma {:induction false} ReachRowEnd(m: FontMetrics, t: seq<char>, i: nat) returns (j: nat)
    requires TableOk(m) && NonNegativeAdvances(m, t) && i <= |t|
    ensures i <= j <= |t| && RowEnd(t, j)
    ensures RowSum(m, LastRow(t[..j])) >= RowSum(m, LastRow(t[..i]))
    decreases |t| - i
  {
    if RowEnd(t, i) {
      j := i;
    } else {
      var next := t[..i + 1];
      assert next[..i] == t[..i] && next[i] == t[i] && next[|next| - 1] == t[i] != '\n';
      var r := LastRow(t[..i]) + [t[i]];
      assert LastRow(next) == r;
      assert r[..|r| - 1] == LastRow(t[..i]) && r[|r| - 1] == t[i];
      assert Advance(m, t[i]) >= 0.0;
      assert RowSum(m, r) == RowSum(m, LastRow(t[..i])) + Advance(m, t[i]);
      j := ReachRowEnd(m, t, i + 1);
    }
  }

  /** Only the characters before the terminating NUL are measured. */
  lemma {:induction false} TerminatorEndsText(s: seq<char>, rest: seq<char>)
    requires '\0' !in s
    ensures CStr(s + ['\0'] + rest) == s
    decreases |s|
  {
    var t := s + ['\0'] + rest;
    if s != [] {
      assert t[0] == s[0] && t[1..] == s[1..] + ['\0'] + rest;
      TerminatorEndsText(s[1..], rest);
    }
  }

  /**
   * Round trip with the packing: measuring a single printable character of
   * a freshly packed table gives back the extent GDI reported for it, since
   * the packing widened it by the spacing on both sides and the measure
   * takes that off again; the height is that of the space glyph.
   */
  lemma SingleGlyphRoundTrip(m: FontMetrics, exts: seq<Extent>, k: nat)
    requires TableOk(m) && |exts| == PackedCount && k < PackedCount
    requires m.texWidth > 0 && m.texHeight > 0
    requires m.table[..PackedCount] == PackedTable(exts, m.spacing, m.texWidth, m.texHeight)
    ensures GetTextExtent(m, Some([(k + 32) as char]), true) == Some(Size(exts[k].cx, exts[0].cy))
  {
    var c := (k + 32) as char;
    var slots := PackAll(exts, m.spacing, m.texWidth);
    assert m.table[k] == m.table[..PackedCount][k];
    assert m.table[0] == m.table[..PackedCount][0];
    GlyphSpan(slots[k], exts[k], m.spacing, m.texWidth, m.texHeight);
    GlyphSpan(slots[0], exts[0], m.spacing, m.texWidth, m.texHeight);
    assert c as int - 32 == k;
    PackedAdvance(m, exts, c);
    assert RowHeight(m) == exts[0].cy as real;
    assert CStr([c]) == [c];
    assert [c][..0] == [];
    var s := Scan(m, [c]);
    assert InTable(c) && c != '\n';
    assert s == MeasureStep(m, Scan(m, []), c);
    assert s == Measure(exts[k].cx as real, exts[k].cx as real, exts[0].cy as real);
    assert Layout.Trunc(exts[k].cx as real) == exts[k].cx;
    assert Layout.Trunc(exts[0].cy as real) == exts[0].cy;
  }

  /**
   * A freshly packed table gives each printable character below DEL the
   * advance GDI reported for it: the packing widened the glyph by the
   * spacing on both sides, and the advance takes that off again.
   */
  lemma PackedAdvance(m: FontMetrics, exts: seq<Extent>, c: char)
    requires TableOk(m) && |exts| == PackedCount && 32 <= c as int < 32 + PackedCount
    requires m.texWidth > 0 && m.texHeight > 0
    requires m.table[..PackedCount] == PackedTable(exts, m.spacing, m.texWidth, m.texHeight)
    ensures Advance(m, c) == exts[c as int - 32].cx as real
  {
    var k := c as int - 32;
    var slots := PackAll(exts, m.spacing, m.texWidth);
    assert m.table[k] == m.table[..PackedCount][k];
    assert Entry(m, c) == GlyphCoords(slots[k], exts[k], m.spacing, m.texWidth, m.texHeight);
    GlyphSpan(slots[k], exts[k], m.spacing, m.texWidth, m.texHeight);
  }

  /**
   * With a freshly packed table, no character of a text without DEL narrows
   * a row, so WidthIsWidestRow applies. DEL's table entry is never written by
   * the packing, so nothing is known of its advance.
   */
  lemma PackedAdvancesNonNegative(m: FontMetrics, exts: seq<Extent>, t: seq<char>)
    requires TableOk(m) && |exts| == PackedCount
    requires m.texWidth > 0 && m.texHeight > 0
    requires m.table[..PackedCount] == PackedTable(exts, m.spacing, m.texWidth, m.texHeight)
    requires forall i :: 0 <= i < |t| ==> t[i] as int != 127
    ensures NonNegativeAdvances(m, t)
  {
    forall i | 0 <= i < |t|
      ensures Advance(m, t[i]) >= 0.0
    {
      if InTable(t[i]) {
        PackedAdvance(m, exts, t[i]);
      }
    }
  }
}

=== FILE: widgets.dfy ===
/**
 * The widget tree of the menu and its per-message update pass
 * (Antario/Menu.cpp: MenuMain, BaseWindow, BaseSection, Checkbox, Button,
 * ComboBox, Slider<T>).
 *
 * Every widget is an object whose fields the update pass changes in place.
 * The values a widget is bound to (a settings bool, a combo index, a slider
 * number, a button's action) are cells owned outside the widget. The state
 * the source keeps in statics (the window drag flag, the window layout latch,
 * the last mouse position, the menu-opened setting) lives in one MenuContext.
 */
module Widgets {
  import opened Cursor
  import opened Wrappers
  import opened Layout

  // ---------------------------------------------------------------------------
  // Shared state and bound values
  // ---------------------------------------------------------------------------

  /** An externally owned bool (a settings flag a checkbox points to). */
  class BoolCell { var value: bool }

  /** An externally owned int (a combo's selected index). */
  class IntCell { var value: int }

  /** An externally owned number (a slider's int or float setting, held exactly). */
  class NumCell { var value: real }

  /** A button's action: only the number of times it has been invoked is observable here. */
  class ActionLog { var calls: nat }

  /**
   * What every widget reads besides its own fields: the one mouse cursor, the
   * style paddings, the font height, and the statics of the source.
   */
  class MenuContext {
    const cursor: MouseCursor
    const padX: int                 // MenuStyle::iPaddingX
    const padY: int                 // MenuStyle::iPaddingY
    const fontHeight: real          // the widget font's flHeight
    var menuOpened: bool            // g_Settings.bMenuOpened
    var isDragged: bool             // the static BaseWindow::bIsDragged, shared by every window and section
    var windowLayoutDone: bool      // the function-local latch of BaseWindow::UpdateData; nothing ever sets it
    var oldMousePos: Option<Vec2>   // the function-local vecOldMousePos; None until its first initialisation

    /** The state at start-up: menu closed, nothing dragged, no statics initialised yet. */
    constructor (cursor: MouseCursor, padX: int, padY: int, fontHeight: real)
      ensures this.cursor == cursor && this.padX == padX && this.padY == padY && this.fontHeight == fontHeight
      ensures !menuOpened && !isDragged && !windowLayoutDone && oldMousePos == None
    {
      this.cursor := cursor;
      this.padX := padX;
      this.padY := padY;
      this.fontHeight := fontHeight;
      menuOpened := false;
      isDragged := false;
      windowLayoutDone := false;
      oldMousePos := None;
    }
  }

  /**
   * The position every widget inherits from MenuMain. It is an object of its
   * own so that laying out a container changes the positions of its children
   * and nothing else of them.
   */
  class Placement {
    var pos: Vec2

    constructor (pos: Vec2)
      ensures this.pos == pos
    {
      this.pos := pos;
    }
  }

  // ---------------------------------------------------------------------------
  // Leaf widgets
  // ---------------------------------------------------------------------------

  /** A checkbox bound to a settings bool. */
  class Checkbox {
    const place: Placement
    const size: Vec2
    const selSize: Vec2             // the clickable square
    var selPos: Vec2
    var hovered: bool
    const cell: BoolCell
    ghost const Repr: set<object>

    /** Checkbox::Checkbox: 100 wide and one line tall, with a square of one line's height. */
    constructor (ctx: MenuContext, cell: BoolCell)
      ensures size == Vec2(100.0, ctx.fontHeight) && selSize == Vec2(ctx.fontHeight, ctx.fontHeight)
      ensures this.cell == cell && Repr == {this, place, cell} && !hovered && place.pos == Vec2(0.0, 0.0) && fresh(place)
    {
      place := new Placement(Vec2(0.0, 0.0));
      size := Vec2(100.0, ctx.fontHeight);
      selSize := Vec2(ctx.fontHeight, ctx.fontHeight);
      this.cell := cell;
      Repr := {this, place, cell};
      hovered := false;
      selPos := Vec2(0.0, 0.0);
    }

    /**
     * Checkbox::UpdateData: the bool is negated exactly when the pointer is
     * strictly inside the square anchored at the widget's position and the
     * left button has just been pressed; that is also the result.
     */
    method UpdateData(ctx: MenuContext) returns (changed: bool)
      modifies this, cell
      ensures var off := (ctx.fontHeight - selSize.y) * 0.5; selPos == place.pos.Plus(Vec2(off, off))
      ensures place.pos == old(place.pos)
      ensures hovered == InBounds(ctx.cursor.pos, place.pos, place.pos.Plus(selSize))
      ensures changed == (hovered && ctx.cursor.lmbPressed)
      ensures cell.value == (if changed then !old(cell.value) else old(cell.value))
    {
      var off := (ctx.fontHeight - selSize.y) * 0.5;
      selPos := place.pos.Plus(Vec2(off, off));
      if ctx.cursor.IsInBounds(place.pos, place.pos.Plus(selSize)) {
        if ctx.cursor.lmbPressed {
          cell.value := !cell.value;
        }
        hovered := true;
      } else {
        hovered := false;
      }
      changed := hovered && ctx.cursor.lmbPressed;
    }
  }

  /** A push button that runs an action. */
  class Button {
    const place: Placement
    const size: Vec2
    var hovered: bool
    const action: ActionLog
    ghost const Repr: set<object>

    /**
     * Button::Button: as wide as requested, or the parent's child width when
     * the requested size is (0, 0); one line plus a padding tall.
     */
    constructor (ctx: MenuContext, action: ActionLog, maxChildWidth: real, requested: Vec2)
      ensures size.x == (if requested == Vec2(0.0, 0.0) then maxChildWidth else requested.x)
      ensures size.y == ctx.fontHeight + ctx.padY as real
      ensures this.action == action && Repr == {this, place, action} && !hovered && place.pos == Vec2(0.0, 0.0) && fresh(place)
    {
      place := new Placement(Vec2(0.0, 0.0));
      size := Vec2(if requested == Vec2(0.0, 0.0) then maxChildWidth else requested.x, ctx.fontHeight + ctx.padY as real);
      this.action := action;
      Repr := {this, place, action};
      hovered := false;
    }

    /**
     * Button::UpdateData: the action runs exactly once when the pointer is
     * strictly inside the button and the left button has just been pressed,
     * and never otherwise; that is also the result.
     */
    method UpdateData(ctx: MenuContext) returns (changed: bool)
      modifies this, action
      ensures place.pos == old(place.pos)
      ensures hovered == InBounds(ctx.cursor.pos, place.pos, place.pos.Plus(size))
      ensures changed == (hovered && ctx.cursor.lmbPressed)
      ensures action.calls == old(action.calls) + (if changed then 1 else 0)
    {
      if ctx.cursor.IsInBounds(place.pos, place.pos.Plus(size)) {
        if ctx.cursor.lmbPressed {
          action.calls := action.calls + 1;
        }
        hovered := true;
      } else {
        hovered := false;
      }
      changed := hovered && ctx.cursor.lmbPressed;
    }
  }

  /** The part of a combo box's state that its update changes. */
  datatype ComboState = ComboState(hovered: bool, active: bool, idHovered: int, value: int)

  /** The selector rectangle of a combo box below its label. */
  function SelectorHit(p: Vec2, selPos: Vec2, selSize: Vec2): bool
  {
    InBounds(p, selPos, selPos.Plus(selSize))
  }

  /**
   * One ComboBox::UpdateData as a function of the pointer `p`, the left-button
   * pulse, the menu-opened flag and the selector geometry; the result's second
   * component is the returned "changed".
   *
   * - A click on the selector toggles the list and reports a change.
   * - The bound index is only ever written by a click on an option row of an
   *   open list; it then gets that row's index, which is below the option
   *   count, and the list closes.
   * - A click outside both zones while open closes the list, writing nothing.
   * - Over an open list, a click always lands on a row and picks it; without
   *   a click the last row under the pointer becomes the hovered one.
   * - A closed list opens only on a click on the selector; away from the
   *   selector a closed list changes nothing but the hover flag, and an open
   *   list away from both zones without a click forgets its hovered row.
   * - Whenever no change is reported and the menu is closed, the list is closed.
   */
  function ComboStep(s: ComboState, p: Vec2, pressed: bool, menuOpened: bool,
                     selPos: Vec2, selSize: Vec2, count: nat): (r: (ComboState, bool))
    ensures SelectorHit(p, selPos, selSize) && pressed ==>
      r.1 && r.0 == s.(hovered := true, active := !s.active)
    ensures r.0.value != s.value ==>
      && r.1 && s.active && pressed && !SelectorHit(p, selPos, selSize)
      && 0 <= r.0.value < count
      && FirstRowHit(p, selPos, selSize, 0, count) == Some(r.0.value as nat)
      && !r.0.active && r.0.idHovered == -1
    ensures s.active && pressed && !SelectorHit(p, selPos, selSize) && !ListHit(p, selPos, selSize, count) ==>
      !r.1 && r.0 == s.(hovered := false, active := false, idHovered := -1)
    ensures s.active && pressed && !SelectorHit(p, selPos, selSize) && ListHit(p, selPos, selSize, count) ==>
      var pick := FirstRowHit(p, selPos, selSize, 0, count);
      pick.Some? && r == (ComboState(false, false, -1, pick.value), true)
    ensures s.active && !pressed && !SelectorHit(p, selPos, selSize) && ListHit(p, selPos, selSize, count) ==>
      var hover := match LastRowHit(p, selPos, selSize, count)
                   case Some(k) => k as int
                   case None => s.idHovered;
      r == (ComboState(false, menuOpened, hover, s.value), false)
    ensures r.0.active && !s.active ==> pressed && SelectorHit(p, selPos, selSize)
    ensures SelectorHit(p, selPos, selSize) && !pressed ==>
      r == (s.(hovered := true, active := s.active && menuOpened), false)
    ensures !s.active && !SelectorHit(p, selPos, selSize) ==> r == (s.(hovered := false), false)
    ensures s.active && !pressed && !SelectorHit(p, selPos, selSize) && !ListHit(p, selPos, selSize, count) ==>
      r == (s.(hovered := false, idHovered := -1, active := menuOpened), false)
    ensures !r.1 && !menuOpened ==> !r.0.active
    ensures r.1 <==>
      pressed && (SelectorHit(p, selPos, selSize) ||
                  (s.active && ListHit(p, selPos, selSize, count) && FirstRowHit(p, selPos, selSize, 0, count).Some?))
    ensures r.0.hovered == SelectorHit(p, selPos, selSize)
  {
    if SelectorHit(p, selPos, selSize) then
      if pressed then (s.(hovered := true, active := !s.active), true)
      else (s.(hovered := true, active := s.active && menuOpened), false)
    else
      var step :=
        if !s.active then (s.(hovered := false), false)
        else if ListHit(p, selPos, selSize, count) then
          ListZoneCoveredByRows(p, selPos, selSize, count);
          ListStep(s.(hovered := false), p, pressed, selPos, selSize, count)
        else (s.(hovered := false, idHovered := -1, active := s.active && !pressed), false);
      if step.1 then step
      else (step.0.(active := step.0.active && menuOpened), false)
  }

  /**
   * The open list under the pointer: a click picks the first option row the
   * pointer is on, closing the list and reporting a change; otherwise the
   * last such row becomes the hovered one.
   */
  function ListStep(s: ComboState, p: Vec2, pressed: bool, selPos: Vec2, selSize: Vec2, count: nat): (r: (ComboState, bool))
    ensures r.1 <==> pressed && FirstRowHit(p, selPos, selSize, 0, count).Some?
    ensures r.1 ==> r.0 == ComboState(s.hovered, false, -1, FirstRowHit(p, selPos, selSize, 0, count).value)
    ensures !r.1 ==> r.0.active == s.active && r.0.value == s.value && r.0.hovered == s.hovered
    ensures !pressed ==> r.0.idHovered == match LastRowHit(p, selPos, selSize, count)
                                         case Some(k) => k as int
                                         case None => s.idHovered
  {
    if pressed then
      match FirstRowHit(p, selPos, selSize, 0, count)
      case Some(k) => (ComboState(s.hovered, false, -1, k), true)
      case None => (s, false)
    else
      match LastRowHit(p, selPos, selSize, count)
      case Some(k) => (s.(idHovered := k), false)
      case None => (s, false)
  }

  /** A drop-down list bound to an index into its option labels. */
  class ComboBox {
    const place: Placement
    const size: Vec2
    const selSize: Vec2             // one row: the selector, and each option below it
    const count: nat                // number of option labels
    var selPos: Vec2
    var hovered: bool
    var active: bool                // the list is open
    var idHovered: int              // last hovered option, -1 for none
    const cell: IntCell
    ghost const Repr: set<object>

    /** ComboBox::ComboBox: closed, nothing hovered; two rows tall, the selector one row. */
    constructor (ctx: MenuContext, count: nat, cell: IntCell, maxChildWidth: real)
      ensures this.count == count && this.cell == cell && Repr == {this, place, cell}
      ensures selSize == Vec2(maxChildWidth, ctx.fontHeight + ctx.padY as real * 0.5)
      ensures size == Vec2(maxChildWidth, selSize.y * 2.0)
      ensures !active && !hovered && idHovered == -1 && place.pos == Vec2(0.0, 0.0) && fresh(place)
    {
      place := new Placement(Vec2(0.0, 0.0));
      this.count := count;
      this.cell := cell;
      Repr := {this, place, cell};
      selSize := Vec2(maxChildWidth, ctx.fontHeight + ctx.padY as real * 0.5);
      size := Vec2(maxChildWidth, (ctx.fontHeight + ctx.padY as real * 0.5) * 2.0);
      active := false;
      hovered := false;
      idHovered := -1;
      selPos := Vec2(0.0, 0.0);
    }

    function State(): ComboState
      reads this, cell
    {
      ComboState(hovered, active, idHovered, cell.value)
    }

    /** ComboBox::UpdateData, proved to agree with ComboStep. */
    method UpdateData(ctx: MenuContext) returns (changed: bool)
      modifies this, cell
      ensures selPos == Vec2(place.pos.x, place.pos.y + ctx.fontHeight + ctx.padY as real * 0.5)
      ensures place.pos == old(place.pos)
      ensures (State(), changed) ==
        ComboStep(old(State()), ctx.cursor.pos, ctx.cursor.lmbPressed, ctx.menuOpened, selPos, selSize, count)
    {
      selPos := Vec2(place.pos.x, place.pos.y + ctx.fontHeight + ctx.padY as real * 0.5);
      if ctx.cursor.IsInBounds(selPos, selPos.Plus(selSize)) {
        hovered := true;
        if ctx.cursor.lmbPressed {
          active := !active;
          return true;
        }
      } else {
        hovered := false;
        if active {
          if ctx.cursor.IsInBounds(Vec2(selPos.x, selPos.y + selSize.y),
                                   Vec2(selPos.x + selSize.x, selPos.y + Stride(selSize.y, count + 1))) {
            changed := ScanOptions(ctx);
            if changed {
              return;
            }
          } else {
            idHovered := -1;
            if ctx.cursor.lmbPressed {
              active := false;
            }
          }
        }
      }
      if !ctx.menuOpened {
        active := false;
      }
      return false;
    }

    /**
     * The option loop of ComboBox::UpdateData, run while the list is open and
     * the pointer is over it: each option row under the pointer becomes the
     * hovered one, and a click on one writes its index, closes the list and
     * ends the update.
     */
    method ScanOptions(ctx: MenuContext) returns (changed: bool)
      requires active
      modifies this`idHovered, this`active, cell`value
      ensures (State(), changed) ==
        ListStep(old(State()), ctx.cursor.pos, ctx.cursor.lmbPressed, selPos, selSize, count)
    {
      var cursor := ctx.cursor;
      var p, pressed := cursor.pos, cursor.lmbPressed;
      var k := 0;
      while k < count
        invariant 0 <= k <= count
        invariant active && cell.value == old(cell.value)
        invariant !pressed || FirstRowHit(p, selPos, selSize, 0, count) == FirstRowHit(p, selPos, selSize, k, count)
        invariant idHovered == match LastRowHit(p, selPos, selSize, k)
                               case Some(j) => j as int
                               case None => old(idHovered)
      {
        var rowTop := Vec2(selPos.x, selPos.y + Stride(selSize.y, k + 1));
        if cursor.IsInBounds(rowTop, Vec2(rowTop.x + selSize.x, rowTop.y + selSize.y + 1.0)) {
          idHovered := k;
          if pressed {
            cell.value := k;
            idHovered := -1;
            active := false;
            return true;
          }
        }
        k := k + 1;
      }
      return false;
    }
  }

  /**
   * A slider bound to a number in [lo, hi]. One class serves both template
   * instantiations: `integral` says whether the bound value is an int, in
   * which case every value written is first truncated toward zero.
   */
  class Slider {
    const place: Placement
    const size: Vec2
    const selSize: Vec2             // the track
    const lo: real
    const hi: real
    const integral: bool
    var selPos: Vec2
    var buttonX: real               // x of the value marker on the track
    var hovered: bool
    var pressed: bool
    var dragX: real                 // drag anchor; 0 reads as "not set"
    var dragOffset: real
    const cell: NumCell
    ghost const Repr: set<object>

    /** Slider<T>::Slider: two rows tall, the track one row, as wide as the parent's child width. */
    constructor (ctx: MenuContext, cell: NumCell, lo: real, hi: real, integral: bool, maxChildWidth: real)
      ensures this.cell == cell && this.lo == lo && this.hi == hi && this.integral == integral
      ensures Repr == {this, place, cell}
      ensures selSize == Vec2(maxChildWidth, ctx.fontHeight + ctx.padY as real * 0.5)
      ensures size == Vec2(maxChildWidth, selSize.y * 2.0)
      ensures !pressed && !hovered && dragX == 0.0 && place.pos == Vec2(0.0, 0.0) && fresh(place)
    {
      place := new Placement(Vec2(0.0, 0.0));
      this.cell := cell;
      this.lo := lo;
      this.hi := hi;
      this.integral := integral;
      Repr := {this, place, cell};
      selSize := Vec2(maxChildWidth, ctx.fontHeight + ctx.padY as real * 0.5);
      size := Vec2(maxChildWidth, (ctx.fontHeight + ctx.padY as real * 0.5) * 2.0);
      pressed := false;
      hovered := false;
      dragX := 0.0;
      dragOffset := 0.0;
      buttonX := 0.0;
      selPos := Vec2(0.0, 0.0);
    }

    /** Slider<T>::GetValuePerPixel: value range over track width. */
    function GetValuePerPixel(): (r: real)
      requires size.x > 0.0
      ensures lo < hi ==> r > 0.0
      ensures r * size.x == hi - lo
    {
      ValuePerPixel(lo, hi, size.x)
    }

    /** The static_cast<T> applied to a computed value before it is stored. */
    function Cast(v: real): real
    {
      if integral then Trunc(v) as real else v
    }

    /** Slider<T>::SetValue: the bound value becomes `v` clamped to [lo, hi]. */
    method SetValue(v: real)
      modifies cell
      ensures cell.value == Clamp(v, lo, hi)
      ensures lo <= hi ==> lo <= cell.value <= hi
    {
      var w := if v > lo then v else lo;
      w := if w < hi then w else hi;
      cell.value := w;
    }

    /**
     * Slider<T>::UpdateData. The pressed latch is set by a press on the track
     * and cleared whenever the left button is up; while pressed, the value
     * moves by the distance from the marker to the drag anchor times the
     * value per pixel, clamped into [lo, hi], and the anchor follows the
     * pointer. The result is the pressed latch.
     */
    method UpdateData(ctx: MenuContext) returns (changed: bool)
      requires lo < hi && size.x > 0.0
      modifies this, cell
      ensures place.pos == old(place.pos)
      ensures selPos == Vec2(place.pos.x, place.pos.y + ctx.fontHeight + ctx.padY as real * 0.5)
      ensures buttonX == MarkerX(selPos.x, old(cell.value), lo, hi, size.x)
      ensures var hit := InBounds(ctx.cursor.pos, selPos, selPos.Plus(selSize));
        && hovered == (old(hovered) || hit)
        && pressed == ((old(pressed) || (hit && ctx.cursor.lmbPressed)) && ctx.cursor.lmbHeld)
      ensures changed == pressed
      ensures !pressed ==> cell.value == old(cell.value) && dragX == old(dragX) && dragOffset == old(dragOffset)
      ensures pressed ==>
        var anchor := if old(dragX) == 0.0 then ctx.cursor.pos.x else old(dragX);
        && dragOffset == anchor - buttonX
        && dragX == ctx.cursor.pos.x
        && cell.value == Clamp(Cast(PixelsToValue(dragOffset, ValuePerPixel(lo, hi, size.x)) + old(cell.value)), lo, hi)
        && lo <= cell.value <= hi
    {
      selPos := Vec2(place.pos.x, place.pos.y + ctx.fontHeight + ctx.padY as real * 0.5);
      buttonX := MarkerX(selPos.x, cell.value, lo, hi, size.x);
      if ctx.cursor.IsInBounds(selPos, selPos.Plus(selSize)) {
        hovered := true;
        if ctx.cursor.lmbPressed {
          pressed := true;
        }
      }
      if !ctx.cursor.lmbHeld {
        pressed := false;
      }
      if pressed {
        if dragX == 0.0 {
          dragX := ctx.cursor.pos.x;
        }
        dragOffset := dragX - buttonX;
        dragX := ctx.cursor.pos.x;
        SetValue(Cast(PixelsToValue(dragOffset, GetValuePerPixel()) + cell.value));
        return true;
      }
      return false;
    }
  }

  /** Empty space of a fixed size; it has no children and never changes. */
  class DummySpace {
    const place: Placement
    const size: Vec2
    ghost const Repr: set<object>

    /** MenuMain::AddDummy's space: the parent's child width wide, one line plus a padding tall. */
    constructor (ctx: MenuContext, maxChildWidth: real)
      ensures size == Vec2(maxChildWidth, ctx.fontHeight + ctx.padY as real)
      ensures Repr == {this, place} && place.pos == Vec2(0.0, 0.0) && fresh(place)
    {
      place := new Placement(Vec2(0.0, 0.0));
      size := Vec2(maxChildWidth, ctx.fontHeight + ctx.padY as real);
      Repr := {this, place};
    }
  }

  // ---------------------------------------------------------------------------
  // Containers and the tree
  // ---------------------------------------------------------------------------

  /** A node of the widget tree: one of the widget kinds. */
  datatype Node =
    | WindowNode(window: BaseWindow)
    | SectionNode(section: BaseSection)
    | CheckboxNode(checkbox: Checkbox)
    | ButtonNode(button: Button)
    | ComboNode(combo: ComboBox)
    | SliderNode(slider: Slider)
    | DummyNode(dummy: DummySpace)

  /** Nesting depth bound: windows hold sections and leaves, sections hold leaves. */
  function Level(n: Node): nat
  {
    match n
    case WindowNode(_) => 2
    case SectionNode(_) => 1
    case _ => 0
  }

  /** The widget object itself. */
  function Obj(n: Node): object
  {
    match n
    case WindowNode(w) => w
    case SectionNode(s) => s
    case CheckboxNode(c) => c
    case ButtonNode(b) => b
    case ComboNode(c) => c
    case SliderNode(s) => s
    case DummyNode(d) => d
  }

  /** MenuMain::GetSize. */
  function Size(n: Node): Vec2
  {
    match n
    case WindowNode(w) => w.size
    case SectionNode(s) => s.size
    case CheckboxNode(c) => c.size
    case ButtonNode(b) => b.size
    case ComboNode(c) => c.size
    case SliderNode(s) => s.size
    case DummyNode(d) => d.size
  }

  /** The node's position object. */
  function Place(n: Node): Placement
  {
    match n
    case WindowNode(w) => w.place
    case SectionNode(s) => s.place
    case CheckboxNode(c) => c.place
    case ButtonNode(b) => b.place
    case ComboNode(c) => c.place
    case SliderNode(s) => s.place
    case DummyNode(d) => d.place
  }

  /** MenuMain::GetPos. */
  function Pos(n: Node): Vec2
    reads Place(n)
  {
    Place(n).pos
  }

  /** MenuMain::SetPos: the node's position becomes `p`; nothing else is touched. */
  method SetPos(n: Node, p: Vec2)
    modifies Place(n)
    ensures Pos(n) == p
  {
    Place(n).pos := p;
  }

  /** Every object an update of `n` may change: the widgets of its subtree and their bound values. */
  ghost function Repr(n: Node): set<object>
  {
    match n
    case WindowNode(w) => w.Repr
    case SectionNode(s) => s.Repr
    case CheckboxNode(c) => c.Repr
    case ButtonNode(b) => b.Repr
    case ComboNode(c) => c.Repr
    case SliderNode(s) => s.Repr
    case DummyNode(d) => d.Repr
  }

  /** The objects of all of `cs`. */
  ghost function ReprAll(cs: seq<Node>): set<object>
  {
    set i, o | 0 <= i < |cs| && o in Repr(cs[i]) :: o
  }

  /**
   * A well-formed subtree: nesting levels decrease, containers have at least
   * one column, no two widgets share an object or a bound value, and neither
   * the context nor the cursor belongs to any widget.
   */
  ghost predicate WellFormed(n: Node, ctx: MenuContext)
    decreases Level(n), 1
  {
    && Obj(n) in Repr(n) && Place(n) in Repr(n) && ctx !in Repr(n) && ctx.cursor !in Repr(n)
    && match n
       case WindowNode(w) => ChildrenOk(w.children, 2, w.Repr - {w, w.place}, ctx)
       case SectionNode(s) => s.numRows >= 1 && ChildrenOk(s.children, 1, s.Repr - {s, s.place}, ctx)
       case CheckboxNode(c) => c.Repr == {c, c.place, c.cell}
       case ButtonNode(b) => b.Repr == {b, b.place, b.action}
       case ComboNode(c) => c.Repr == {c, c.place, c.cell}
       case SliderNode(s) => s.Repr == {s, s.place, s.cell} && s.lo < s.hi && s.size.x > 0.0
       case DummyNode(d) => d.Repr == {d, d.place}
  }

  /**
   * Children of a container: each well-formed, below nesting bound `bound`
   * and made of objects of `space`; no two share an object.
   */
  ghost predicate ChildrenOk(cs: seq<Node>, bound: nat, space: set<object>, ctx: MenuContext)
    decreases bound, 0
  {
    && (forall i :: 0 <= i < |cs| ==> Level(cs[i]) < bound && Repr(cs[i]) <= space)
    && (forall i :: 0 <= i < |cs| ==> WellFormed(cs[i], ctx))
    && (forall i, j :: 0 <= i < j < |cs| ==> Repr(cs[i]) !! Repr(cs[j]))
  }

  /** The heights of a list of nodes, in order. */
  function Heights(cs: seq<Node>): (hs: seq<real>)
    ensures |hs| == |cs|
  {
    seq(|cs|, i requires 0 <= i < |cs| => Size(cs[i]).y)
  }

  /** The sizes of a list of nodes, in order. */
  function Sizes(cs: seq<Node>): (ss: seq<Vec2>)
    ensures |ss| == |cs|
  {
    seq(|cs|, i requires 0 <= i < |cs| => Size(cs[i]))
  }

  /** A section: a fixed-size box laying out its leaves in `numRows` columns. */
  class BaseSection {
    const place: Placement
    const size: Vec2
    const numRows: int
    const children: seq<Node>
    var initialized: bool
    ghost const Repr: set<object>

    /** BaseSection::BaseSection, with its final list of children; not laid out yet. */
    constructor (size: Vec2, numRows: int, children: seq<Node>)
      ensures this.size == size && this.numRows == numRows && this.children == children
      ensures Repr == {this, place} + ReprAll(children)
      ensures !initialized && place.pos == Vec2(0.0, 0.0) && fresh(place)
    {
      place := new Placement(Vec2(0.0, 0.0));
      this.size := size;
      this.numRows := numRows;
      this.children := children;
      Repr := {this, place} + ReprAll(children);
      initialized := false;
    }

    /** The width a child gets by default: one column less the padding on both sides. */
    function MaxChildWidth(ctx: MenuContext): real
      requires numRows >= 1
    {
      size.x / numRows as real - 2.0 * ctx.padX as real
    }

    function Geom(ctx: MenuContext): SectionGeom
      reads place
    {
      SectionGeom(place.pos, size, numRows, ctx.padX as real, ctx.padY as real)
    }

    /**
     * BaseSection::SetupPositions. Nothing happens when the section is laid
     * out already and no window is being dragged. Otherwise the children get
     * the positions SectionLayout computes for their heights, in order; the
     * children it has no room for keep their old positions. The latch is set
     * afterwards in both cases, and nothing but the latch and the children's
     * positions may change.
     */
    method SetupPositions(ctx: MenuContext)
      requires WellFormed(SectionNode(this), ctx)
      modifies this`initialized, set i | 0 <= i < |children| :: Place(children[i])
      ensures initialized && place.pos == old(place.pos)
      ensures !ctx.isDragged && old(initialized) ==>
        forall j :: 0 <= j < |children| ==> Pos(children[j]) == old(Pos(children[j]))
      ensures ctx.isDragged || !old(initialized) ==>
        var ps := SectionLayout(Geom(ctx), Heights(children));
        && (forall j :: 0 <= j < |ps| ==> Pos(children[j]) == ps[j])
        && (forall j :: |ps| <= j < |children| ==> Pos(children[j]) == old(Pos(children[j])))
    {
      if !ctx.isDragged && initialized {
        return;
      }
      PlacesDistinct(children, 1, Repr - {this, place}, ctx);
      PlaceInColumns(children, Geom(ctx));
      initialized := true;
    }

    /**
     * BaseSection::UpdateData: lay out the children as SetupPositions does,
     * then update them as MenuMain::UpdateData does.
     */
    method UpdateData(ctx: MenuContext) returns (changed: bool, ghost stop: nat)
      requires WellFormed(SectionNode(this), ctx)
      modifies Repr
      ensures place.pos == old(place.pos) && initialized
      ensures ctx.isDragged || !old(initialized) ==>
        var ps := SectionLayout(Geom(ctx), Heights(children));
        forall j :: 0 <= j < |ps| ==> Pos(children[j]) == ps[j]
      ensures stop <= |children| && (changed <==> stop < |children|)
      ensures PassReported(children, 1, Repr - {this, place}, ctx, stop)
      decreases 1, 1
    {
      PlacesDistinct(children, 1, Repr - {this, place}, ctx);
      SetupPositions(ctx);
      changed, stop := UpdateChildren(ctx, children, 1, Repr - {this, place});
    }
  }

  /** A top-level window: a header strip to drag it by, and children laid out in wrapping columns. */
  class BaseWindow {
    const place: Placement
    const size: Vec2
    const header: int               // iHeaderHeight
    const children: seq<Node>
    ghost const Repr: set<object>

    /**
     * BaseWindow::BaseWindow, with its final list of children: the header is
     * the font height plus 2, truncated to whole pixels.
     */
    constructor (pos: Vec2, size: Vec2, fontHeight: real, children: seq<Node>)
      ensures place.pos == pos && fresh(place) && this.size == size && this.children == children
      ensures header == Trunc(fontHeight + 2.0)
      ensures Repr == {this, place} + ReprAll(children)
    {
      place := new Placement(pos);
      this.size := size;
      this.children := children;
      header := Trunc(fontHeight + 2.0);
      Repr := {this, place} + ReprAll(children);
    }

    function Geom(ctx: MenuContext): WindowGeom
      reads place
    {
      WindowGeom(place.pos, size, header as real, ctx.padX as real, ctx.padY as real)
    }

    /** The drag area's bottom-right corner: the window's right edge at the bottom of its header. */
    function HeaderCorner(): Vec2
      reads place
    {
      Vec2(place.pos.x + size.x, place.pos.y + header as real)
    }

    /**
     * The header drag of BaseWindow::UpdateData. A press inside the header
     * starts a drag, which lasts while the left button is held; while dragged,
     * the window moves by the pointer's movement since the previous call (none
     * on the very first call). The last pointer position is recorded either way.
     */
    method Drag(ctx: MenuContext)
      modifies place, ctx
      ensures ctx.windowLayoutDone == old(ctx.windowLayoutDone) && ctx.menuOpened == old(ctx.menuOpened)
      ensures ctx.isDragged ==
        ((ctx.cursor.lmbPressed && InBounds(ctx.cursor.pos, old(place.pos), old(HeaderCorner())))
         || (!ctx.cursor.lmbPressed && old(ctx.isDragged) && ctx.cursor.lmbHeld)
         || (ctx.cursor.lmbPressed && !InBounds(ctx.cursor.pos, old(place.pos), old(HeaderCorner())) && old(ctx.isDragged) && ctx.cursor.lmbHeld))
      ensures var prev := if old(ctx.oldMousePos).Some? then old(ctx.oldMousePos).value else ctx.cursor.pos;
        place.pos == if ctx.isDragged then old(place.pos).Plus(ctx.cursor.pos.Minus(prev)) else old(place.pos)
      ensures ctx.oldMousePos == Some(ctx.cursor.pos)
    {
      if ctx.cursor.lmbPressed && ctx.cursor.IsInBounds(place.pos, HeaderCorner()) {
        ctx.isDragged := true;
      } else if !ctx.cursor.lmbHeld {
        ctx.isDragged := false;
      }
      if ctx.oldMousePos.None? {
        ctx.oldMousePos := Some(ctx.cursor.pos);
      }
      if ctx.isDragged {
        place.pos := place.pos.Plus(ctx.cursor.pos.Minus(ctx.oldMousePos.value));
      }
      ctx.oldMousePos := Some(ctx.cursor.pos);
    }

    /**
     * BaseWindow::UpdateData. A press inside the header starts a drag, which
     * lasts while the left button is held; while dragged, the window moves by
     * the pointer's movement since the previous call. The children are laid
     * out at the window's final position whenever the layout latch is unset
     * (which is always) or the window is dragged; then they are updated as
     * MenuMain::UpdateData does.
     */
    method UpdateData(ctx: MenuContext) returns (changed: bool, ghost stop: nat)
      requires WellFormed(WindowNode(this), ctx)
      modifies Repr, ctx
      ensures ctx.windowLayoutDone == old(ctx.windowLayoutDone) && ctx.menuOpened == old(ctx.menuOpened)
      ensures ctx.isDragged ==
        ((ctx.cursor.lmbPressed && InBounds(ctx.cursor.pos, old(place.pos), old(HeaderCorner())))
         || (!ctx.cursor.lmbPressed && old(ctx.isDragged) && ctx.cursor.lmbHeld)
         || (ctx.cursor.lmbPressed && !InBounds(ctx.cursor.pos, old(place.pos), old(HeaderCorner())) && old(ctx.isDragged) && ctx.cursor.lmbHeld))
      ensures var prev := if old(ctx.oldMousePos).Some? then old(ctx.oldMousePos).value else ctx.cursor.pos;
        place.pos == if ctx.isDragged then old(place.pos).Plus(ctx.cursor.pos.Minus(prev)) else old(place.pos)
      ensures ctx.oldMousePos == Some(ctx.cursor.pos)
      ensures !ctx.windowLayoutDone || ctx.isDragged ==>
        var ps := WindowPlace(Geom(ctx), Sizes(children), WindowStart(Geom(ctx)));
        forall j :: 0 <= j < |children| ==> Pos(children[j]) == ps[j]
      ensures ctx.windowLayoutDone && !ctx.isDragged ==>
        forall j :: 0 <= j < |children| ==> Pos(children[j]) == old(Pos(children[j]))
      ensures stop <= |children| && (changed <==> stop < |children|)
      ensures PassReported(children, 2, Repr - {this, place}, ctx, stop)
      decreases 2, 1
    {
      PlacesDistinct(children, 2, Repr - {this, place}, ctx);
      if !ctx.windowLayoutDone {
        SetChildPos(children, Geom(ctx));
      }
      Drag(ctx);
      if ctx.isDragged {
        SetChildPos(children, Geom(ctx));
      }
      changed, stop := UpdateChildren(ctx, children, 2, Repr - {this, place});
    }
  }

  /** SetPos on the `i`-th of children whose positions are distinct objects: no other child moves. */
  method SetPosAt(cs: seq<Node>, i: nat, p: Vec2)
    requires i < |cs|
    requires forall i, j :: 0 <= i < |cs| && 0 <= j < |cs| && i != j ==> Place(cs[i]) != Place(cs[j])
    modifies Place(cs[i])
    ensures Pos(cs[i]) == p
    ensures forall j :: 0 <= j < |cs| && j != i ==> Pos(cs[j]) == old(Pos(cs[j]))
  {
    SetPos(cs[i], p);
  }

  /**
   * The loop of BaseSection::SetupPositions: the children `cs` of a section
   * with geometry `g` get the positions SectionLayout computes for their
   * heights, in order; the children it has no room for keep their positions.
   * Only positions change.
   */
  method PlaceInColumns(cs: seq<Node>, g: SectionGeom)
    requires SectionOk(g)
    requires forall i, j :: 0 <= i < |cs| && 0 <= j < |cs| && i != j ==> Place(cs[i]) != Place(cs[j])
    modifies set i | 0 <= i < |cs| :: Place(cs[i])
    ensures var ps := SectionLayout(g, Heights(cs));
      && (forall j :: 0 <= j < |ps| ==> Pos(cs[j]) == ps[j])
      && (forall j :: |ps| <= j < |cs| ==> Pos(cs[j]) == old(Pos(cs[j])))
  {
    var hs := Heights(cs);
    ghost var all := SectionLayout(g, hs);
    var used := 0.0;
    var shift := 0.0;
    var leftRows := g.numRows - 1;
    var it := 0;
    while it < |cs|
      invariant 0 <= it <= |cs| && leftRows >= 0
      invariant SectionPlacedFrom(g, hs, it, used, shift, leftRows, all)
      invariant forall j :: 0 <= j < it ==> Pos(cs[j]) == all[j]
      invariant forall j :: it <= j < |cs| ==> Pos(cs[j]) == old(Pos(cs[j]))
      decreases |cs| - it, leftRows
    {
      var px := g.origin.x + g.padX + shift;
      var py := g.origin.y + used + g.padY;
      if py + hs[it] > SectionBottom(g) {
        SectionPlaceWrap(g, hs, it, used, shift, leftRows, all);
        if leftRows > 0 {
          shift := shift + ColumnWidth(g);
          used := 0.0;
          leftRows := leftRows - 1;
          continue;
        } else {
          break;
        }
      }
      SectionPlaceAdvance(g, hs, it, used, shift, leftRows, all);
      SetPosAt(cs, it, Vec2(px, py));
      used := used + hs[it] + g.padY;
      it := it + 1;
    }
    assert it == |cs| ==> hs[it..] == [] && all[it..] == [];
  }

  /**
   * The setChildPos lambda of BaseWindow::UpdateData: the children `cs` of a
   * window with geometry `g` get the positions WindowPlace computes for their
   * sizes, in order. Only positions change.
   */
  method SetChildPos(cs: seq<Node>, g: WindowGeom)
    requires forall i, j :: 0 <= i < |cs| && 0 <= j < |cs| && i != j ==> Place(cs[i]) != Place(cs[j])
    modifies set i | 0 <= i < |cs| :: Place(cs[i])
    ensures var ps := WindowPlace(g, Sizes(cs), WindowStart(g));
      forall j :: 0 <= j < |cs| ==> Pos(cs[j]) == ps[j]
  {
    var sizes := Sizes(cs);
    ghost var all := WindowPlace(g, sizes, WindowStart(g));
    var biggest := 0.0;
    var used := g.header;
    var posX := g.origin.x + g.padX;
    var posY := 0.0;
    var i := 0;
    while i < |cs|
      invariant 0 <= i <= |cs| && i <= |all|
      invariant WindowPlace(g, sizes[i..], WindowPen(posX, used, biggest)) == all[i..]
      invariant forall j :: 0 <= j < i ==> Pos(cs[j]) == all[j]
    {
      var s := sizes[i];
      ghost var pen := WindowPen(posX, used, biggest);
      WindowPlaceAdvance(g, sizes, i, pen, all);
      posY := g.origin.y + used + g.padY;
      if posY + s.y > g.origin.y + g.size.y {
        posY := posY - used;
        posY := posY + g.header;
        used := g.header;
        posX := posX + biggest + g.padX;
      }
      SetPosAt(cs, i, Vec2(posX, posY));
      used := used + s.y + g.padY;
      if s.x > biggest {
        biggest := s.x;
      }
      assert Vec2(posX, posY) == WindowPlaceOne(g, s, pen) && WindowPen(posX, used, biggest) == WindowAdvance(g, s, pen);
      i := i + 1;
    }
  }

  /**
   * The children of a container own their position objects, which lie in the
   * container's `space` and are pairwise distinct.
   */
  lemma PlacesDistinct(cs: seq<Node>, bound: nat, space: set<object>, ctx: MenuContext)
    requires ChildrenOk(cs, bound, space, ctx)
    ensures forall i :: 0 <= i < |cs| ==> Place(cs[i]) in Repr(cs[i]) && Place(cs[i]) in space
    ensures forall i, j :: 0 <= i < |cs| && 0 <= j < |cs| && i != j ==> Place(cs[i]) != Place(cs[j])
  {
    forall i | 0 <= i < |cs| ensures Place(cs[i]) in Repr(cs[i]) && Place(cs[i]) in space {
      assert WellFormed(cs[i], ctx);
    }
    forall i, j | 0 <= i < |cs| && 0 <= j < |cs| && i != j ensures Place(cs[i]) != Place(cs[j]) {
      assert WellFormed(cs[i], ctx) && WellFormed(cs[j], ctx);
      if i < j {
        assert Repr(cs[i]) !! Repr(cs[j]);
      } else {
        assert Repr(cs[j]) !! Repr(cs[i]);
      }
    }
  }

  /**
   * What a node's update reported, as far as the state after it shows:
   * - a checkbox or button reports a click on its hit rectangle;
   * - a combo box reports every click on its selector, and otherwise only a
   *   click that picked the first option row under the pointer, leaving the
   *   list closed on that index;
   * - a slider reports whether it is being dragged, its value then in range;
   * - the spacer reports nothing;
   * - a container reports what its pass over its children found.
   */
  ghost predicate Reported(n: Node, ctx: MenuContext, r: bool)
    requires WellFormed(n, ctx)
    reads Repr(n), ctx`menuOpened, ctx.cursor
    decreases Level(n), 1
  {
    var p, pressed := ctx.cursor.pos, ctx.cursor.lmbPressed;
    match n
    case WindowNode(w) =>
      exists stop: nat :: PassReported(w.children, 2, w.Repr - {w, w.place}, ctx, stop) && (r <==> stop < |w.children|)
    case SectionNode(s) =>
      exists stop: nat :: PassReported(s.children, 1, s.Repr - {s, s.place}, ctx, stop) && (r <==> stop < |s.children|)
    case CheckboxNode(c) =>
      c.hovered == InBounds(p, c.place.pos, c.place.pos.Plus(c.selSize)) && r == (c.hovered && pressed)
    case ButtonNode(b) =>
      b.hovered == InBounds(p, b.place.pos, b.place.pos.Plus(b.size)) && r == (b.hovered && pressed)
    case ComboNode(c) =>
      var pick := FirstRowHit(p, c.selPos, c.selSize, 0, c.count);
      && c.hovered == SelectorHit(p, c.selPos, c.selSize)
      && (c.hovered && pressed ==> r)
      && (r && !c.hovered ==>
            pressed && ListHit(p, c.selPos, c.selSize, c.count) && pick.Some?
            && c.cell.value == pick.value && !c.active && c.idHovered == -1)
    case SliderNode(s) =>
      r == s.pressed && (r ==> ctx.cursor.lmbHeld && s.dragX == p.x && s.lo <= s.cell.value <= s.hi)
    case DummyNode(_) =>
      !r
  }

  /**
   * A pass over `cs` that stopped at `stop`: every child before it was
   * updated and reported no change, and the child at `stop`, if any,
   * reported one.
   */
  ghost predicate PassReported(cs: seq<Node>, bound: nat, space: set<object>, ctx: MenuContext, stop: nat)
    requires ChildrenOk(cs, bound, space, ctx)
    reads space, ctx`menuOpened, ctx.cursor
    decreases bound, 0
  {
    && stop <= |cs|
    && (forall j :: 0 <= j < stop ==> Reported(cs[j], ctx, false))
    && (stop < |cs| ==> Reported(cs[stop], ctx, true))
  }

  /** One child's update, dispatched on its kind (the virtual UpdateData call). */
  method UpdateNode(ctx: MenuContext, n: Node) returns (changed: bool)
    requires WellFormed(n, ctx)
    modifies Repr(n), (if Level(n) == 2 then {ctx} else {})
    ensures Level(n) < 2 ==> Pos(n) == old(Pos(n))
    ensures ctx.menuOpened == old(ctx.menuOpened)
    ensures Reported(n, ctx, changed)
    ensures n.CheckboxNode? ==>
      n.checkbox.cell.value == if changed then !old(n.checkbox.cell.value) else old(n.checkbox.cell.value)
    ensures n.ButtonNode? ==> n.button.action.calls == old(n.button.action.calls) + if changed then 1 else 0
    ensures n.ComboNode? ==>
      var c := n.combo;
      (c.State(), changed) == ComboStep(old(c.State()), ctx.cursor.pos, ctx.cursor.lmbPressed, ctx.menuOpened, c.selPos, c.selSize, c.count)
    ensures n.SliderNode? ==> !changed ==> n.slider.cell.value == old(n.slider.cell.value)
    decreases Level(n), 2
  {
    match n
    case WindowNode(w) =>
      ghost var stop;
      changed, stop := w.UpdateData(ctx);
      assert PassReported(w.children, 2, w.Repr - {w, w.place}, ctx, stop);
    case SectionNode(s) =>
      ghost var stop;
      changed, stop := s.UpdateData(ctx);
      assert PassReported(s.children, 1, s.Repr - {s, s.place}, ctx, stop);
    case CheckboxNode(c) =>
      changed := c.UpdateData(ctx);
    case ButtonNode(b) =>
      changed := b.UpdateData(ctx);
    case ComboNode(c) =>
      changed := c.UpdateData(ctx);
    case SliderNode(s) =>
      changed := s.UpdateData(ctx);
    case DummyNode(_) =>
      changed := false;
  }

  /**
   * MenuMain::UpdateData: the children are updated in order until the first
   * one reports a change. `stop` is the index of that child, or the number of
   * children when none does; the result is true exactly when some child
   * reported a change, every child before it reported none, and every child
   * after it is left untouched. With no children the result is false.
   */
  method UpdateChildren(ctx: MenuContext, cs: seq<Node>, ghost bound: nat, ghost space: set<object>)
    returns (changed: bool, ghost stop: nat)
    requires ChildrenOk(cs, bound, space, ctx)
    modifies space, (if bound > 2 then {ctx} else {})
    ensures stop <= |cs| && (changed <==> stop < |cs|)
    ensures PassReported(cs, bound, space, ctx, stop)
    ensures forall j :: stop < j < |cs| ==> unchanged(Repr(cs[j]))
    ensures bound <= 2 ==> forall j :: 0 <= j < |cs| ==> Pos(cs[j]) == old(Pos(cs[j]))
    ensures ctx.menuOpened == old(ctx.menuOpened)
    decreases bound, 0
  {
    PlacesDistinct(cs, bound, space, ctx);
    var i := 0;
    while i < |cs|
      invariant 0 <= i <= |cs|
      invariant forall j :: i <= j < |cs| ==> unchanged(Repr(cs[j]))
      invariant bound <= 2 ==> forall j :: 0 <= j < i ==> Pos(cs[j]) == old(Pos(cs[j]))
      invariant ctx.menuOpened == old(ctx.menuOpened)
      invariant forall j :: 0 <= j < i ==> Reported(cs[j], ctx, false)
    {
      var c := UpdateNode(ctx, cs[i]);
      if c {
        return true, i;
      }
      i := i + 1;
    }
    return false, |cs|;
  }

  /**
   * MenuMain::RunThink on the root: feed one message to the cursor, then run
   * one update pass over the root's children (the windows).
   */
  method RunThink(ctx: MenuContext, roots: seq<Node>, ghost space: set<object>, ev: InputEvent)
    returns (changed: bool, ghost stop: nat)
    requires ChildrenOk(roots, 3, space, ctx) && ctx !in space && ctx.cursor !in space
    modifies ctx.cursor, space, ctx
    ensures ctx.cursor.State() == Think(old(ctx.cursor.State()), ev)
    ensures stop <= |roots| && (changed <==> stop < |roots|)
    ensures PassReported(roots, 3, space, ctx, stop)
    ensures forall j :: stop < j < |roots| ==> unchanged(Repr(roots[j]))
    ensures ctx.menuOpened == old(ctx.menuOpened)
  {
    ctx.cursor.RunThink(ev);
    changed, stop := UpdateChildren(ctx, roots, 3, space);
  }
}

=== FILE: wrappers.dfy ===
/** Optional values, used where the source keeps a value that may not be set yet. */
module Wrappers {
  datatype Option<+T> = None | Some(value: T)
}
